=== FILE: README.md ===
# Backup manager of the YouTube downloader project

This project models the backup subsystem of a small web application. It
covers two files.

`BackupManager` (`backup.py`) keeps a ledger of backup records in
`backups/backup_info.json`. Each record holds a version label, a
second-resolution timestamp, a description, the backup directory
`backups/backup_<version>_<timestamp>`, the list of captured files and a
creation time.
- Creating a backup copies a fixed six-file manifest into the directory
  `backups/backup_<version>_<timestamp>` and appends a record. It then
  trims the ledger to the five newest records. Trimming deletes the
  directories of the evicted records.
- Deleting removes one record by its `(version, timestamp)` key.
- Restoring first takes an `auto_backup` snapshot of the current state.
  It then copies the selected backup's files back to their original
  locations.

The command-line layer (`manage.py`) adds four things:
- a digits-and-dots version validator;
- a project completeness report;
- a `backup` command that refuses an incomplete project unless forced,
  and prepends an entry to `CHANGELOG.md`;
- `delete` and `restore` commands that drive the manager.

The model is layered as follows.

- `Strings`: Python's ordering of strings (`LexLess`), which the sorts use
  to compare timestamps.
- `Paths`: plain `/`-separated paths with `Base` (`Path.name`), `Parent`
  and `Join`.
- `Disks`: a filesystem as a map of files plus a set of directories.
  `FileSystem` is the mutable object the code changes through `mkdir`,
  `copy2`, `rmtree` and file writes. Its constructor stands for the
  filesystem the program finds when it starts; it models no source line.
- `Ledger`: records and the pure ledger algorithms.
  - `NewestFirst` is the stable `sorted(..., key=timestamp, reverse=True)`.
  - `RemoveFirst` is `list.remove`.
  - `SliceStart` gives the `[keep:]` slice bound; `Evicted` and `Trimmed`
    give the retention split.
  - `Latest` is the newest record; `Matching` and `FirstMatch` are the key
    lookups.
- `Snapshots`: the copy loops as folds over the manifest. `SaveAll` is the
  copy in `create_backup`; `RestoreAll` is the copy back in
  `restore_backup`.
- `Backup`:
  - specification functions `Create`, `Trim`, `Delete`, `Target` and
    `Restore` on a `Store` (ledger plus disk);
  - the lemmas about them;
  - the `BackupManager` class, whose methods perform each operation step
    by step. Each method is proved to have exactly the effect of its
    specification function.
- `Manage`: the command layer, with methods that call the manager.

The `restore` command's `--version` option is documented as the version
to restore, with the latest used when none is given (manage.py:121). Its
success message names that version (manage.py:134). But the call at
manage.py:133 is `restore_backup(version)` without a timestamp, so
`restore_backup` never uses the version (see Findings). The model follows
the call as written.

## Model

| member | source | states |
|---|---|---|
| Strings.LexLess | backup.py:113 | definition of Python's `<` on strings, the order of the timestamp sort key; see `LexLessIrreflexive`, `LexLessTransitive`, `LexLessTotal` |
| Strings.LexLessIrreflexive | backup.py:111-115 | no timestamp string sorts before itself |
| Strings.LexLessTransitive | backup.py:111-115 | the string order that sorts timestamps is transitive |
| Strings.LexLessTotal | backup.py:111-115 | of two distinct timestamp strings one is smaller, so the sort order is total |
| Strings.NotLessTransitive | backup.py:111-115 | "not smaller" is transitive, which is what a stable sort on equal keys relies on |
| Paths.Base | backup.py:78-80 | `Path.name` is the last component: a suffix of the path that contains no '/' and follows a '/' when shorter than the path |
| Paths.JoinWithin | backup.py:61 | `backup_dir / name` lies inside `backup_dir` |
| Paths.JoinInjective | backup.py:80 | different file names give different destinations in one backup directory |
| Paths.ParentOfJoin | backup.py:80-81 | the destination `backup_path / src.name` has that name as its base and `backup_path` as its parent |
| Paths.Join | backup.py:80 | definition of `backup_path / src.name` (also `self.backup_dir / backup_name` at line 61 and `backup_path / Path(file).name` at line 159); see `JoinWithin`, `JoinInjective`, `ParentOfJoin` |
| Paths.Parent | backup.py:81 | definition of `dst.parent` (also line 161); see `ParentOfJoin` |
| Paths.Within | backup.py:42 | definition of the paths `rmtree(root)` reaches: the root and everything below `root/`; see `Disks.WithoutTree`, `WithinTransitive` |
| Paths.WithinTransitive | backup.py:42 | a path below a directory that lies below `root` lies below `root`, so `rmtree(root)` also reaches what lies below a nested directory |
| Disks.Exists | backup.py:41 | definition of `Path.exists()`: a directory or a file is at the path (also line 120) |
| Disks.WithDir | backup.py:65 | definition of `mkdir(exist_ok=True)` on a disk value; see `FileSystem.Mkdir` |
| Disks.WithCopy | backup.py:82 | definition of `copy2(src, dst)` on a disk value; see `FileSystem.Copy2` |
| Disks.WithFile | manage.py:94-104 | definition of writing a whole file on a disk value; see `FileSystem.Write` |
| Disks.WithoutTree | backup.py:41-42 | after `rmtree(root)` the root is gone, exactly the paths outside it remain, and surviving files keep their content |
| Disks.FileSystem.Mkdir | backup.py:65 | `mkdir(exist_ok=True)` adds the directory and changes nothing else |
| Disks.FileSystem.Copy2 | backup.py:82 | `copy2(src, dst)` gives `dst` the content of `src` |
| Disks.FileSystem.Write | manage.py:94-104 | writing a file replaces its content and nothing else |
| Disks.FileSystem.Rmtree | backup.py:42 | `rmtree` removes exactly the tree under its root |
| Ledger.Older | backup.py:113 | definition of the sort key comparison: a record is older when its timestamp string is smaller; see `OlderAsymmetric`, `NewestFirstOrdered` |
| Ledger.OlderAsymmetric | backup.py:111-115 | "older" is asymmetric, and records related by it have different timestamps |
| Ledger.InsertByStamp | backup.py:111-115 | one insertion step of the sort adds exactly the inserted record |
| Ledger.NewestFirst | backup.py:111-115 | the sorted ledger is a permutation of the ledger |
| Ledger.InsertByStampOrdered | backup.py:111-115 | inserting into a newest-first list keeps it newest first |
| Ledger.NewestFirstOrdered | backup.py:111-115 | the sorted ledger is ordered by timestamp, newest first |
| Ledger.NewestFirstStable | backup.py:111-115 | the sort is stable: records with equal timestamps keep their ledger order |
| Ledger.InsertByStampStable | backup.py:111-115 | one insertion step keeps records with equal timestamps in their order |
| Ledger.WithStampAppend | backup.py:111-115 | selecting one timestamp distributes over concatenation |
| Ledger.RemoveFirst | backup.py:45 | `list.remove(x)` takes out exactly one occurrence of x |
| Ledger.RemoveFirstAt | backup.py:45 | `list.remove(x)` drops the first index holding x and keeps everything else in order |
| Ledger.RemoveEach | backup.py:118-122 | removing each evicted record takes out exactly the evicted multiset |
| Ledger.RemainderFits | backup.py:118-122 | in the eviction loop, each record still to remove is still in the ledger |
| Ledger.SliceStart | backup.py:118 | where the `[keep_count:]` slice starts, for negative bounds too |
| Ledger.Evicted | backup.py:111-118 | the evicted records are a sub-multiset of the ledger, and there are as many as the slice leaves |
| Ledger.TrimmedSurvivors | backup.py:107-124 | after cleanup the ledger holds exactly the newest `keep` records of the sorted ledger, as a multiset |
| Ledger.TrimKeepsNewest | backup.py:107-124 | cleanup leaves exactly `keep` records, and no survivor is older than an evicted record |
| Ledger.TrimmedLength | backup.py:107-124 | after cleanup the ledger has min(n, keep) records, with Python's slice rule for negative keep |
| Ledger.TrimNegativeShrinks | backup.py:107-124 | for a negative bound (Python's slice rule), a second cleanup of a non-empty ledger removes more records, so cleanup is not idempotent there |
| Ledger.TrimIdempotent | backup.py:107-124 | for a bound ≥ 0, a second cleanup with the same bound changes nothing |
| Ledger.Trimmed | backup.py:107-124 | definition of the ledger after cleanup; see `TrimmedSurvivors`, `TrimKeepsNewest`, `TrimmedLength`, `TrimIdempotent` |
| Ledger.Members | backup.py:118-122 | the set of evicted records |
| Ledger.Without | backup.py:118-122 | filtering out a set keeps only records of the ledger that are not in it |
| Ledger.WithoutAppend | backup.py:118-122 | filtering distributes over concatenation |
| Ledger.WithoutKeepsAll | backup.py:118-122 | filtering by a set disjoint from the ledger changes nothing |
| Ledger.WithoutDropsAll | backup.py:118-122 | filtering by a set covering the ledger leaves nothing |
| Ledger.WithoutWithStamp | backup.py:118-122 | filtering commutes with selecting a timestamp |
| Ledger.WithoutTwice | backup.py:118-122 | filtering twice is filtering by the union |
| Ledger.WithoutSubMultiset | backup.py:118-122 | filtering only removes records |
| Ledger.DistinctSub | backup.py:118-122 | part of a ledger without duplicates has no duplicates |
| Ledger.RemoveFirstDistinct | backup.py:122 | without duplicates, `remove(x)` is filtering x out |
| Ledger.RemoveEachDistinct | backup.py:118-122 | without duplicates, the eviction loop filters out the evicted set |
| Ledger.KeptNotEvicted | backup.py:118 | without duplicates, no kept record is also evicted |
| Ledger.TrimmedLedgerOrder | backup.py:107-124 | without duplicates, cleanup keeps the survivors in their original ledger order |
| Ledger.TrimmedTies | backup.py:107-124 | without duplicate records, the survivors with a given timestamp are the earliest records with it, in ledger order (with duplicates `list.remove` can reorder them) |
| Ledger.Latest | backup.py:144-149 | the newest record is a record of the ledger |
| Ledger.FirstWithStamp | backup.py:144-149 | returns the first index holding a timestamp; the record there is the first of the records with that timestamp, and no earlier record has it |
| Ledger.LatestIsNewest | backup.py:144-149 | `sorted(..., reverse=True)[0]` is no older than any record, and every record before it in the ledger is strictly older |
| Ledger.WithStamp | backup.py:111-115 | the records with a given timestamp are records of the ledger |
| Ledger.Matching | backup.py:135-138 | the matching list holds only ledger records with the key, and is empty iff no record has the key |
| Ledger.HasKey | backup.py:37 | definition of the `(version, timestamp)` key test (also line 137); see `FirstMatch`, `Matching` |
| Ledger.FirstMatch | backup.py:36-37 | the loop stops at the first record with the key, or at no record when none has it |
| Ledger.MatchingHead | backup.py:135-142 | `matching_backups[0]` is the record at the first matching index |
| Snapshots.SaveOne | backup.py:78-82 | definition of one turn of the create copy loop; see `SaveAllFrame`, `SaveAllStores` |
| Snapshots.SaveAll | backup.py:77-82 | definition of the create copy loop; see `SaveAllFrame`, `SaveAllStores`, `RoundTrip` |
| Snapshots.RestoreOne | backup.py:159-163 | definition of one turn of the restore copy loop; see `RestoreOneEffect` |
| Snapshots.RestoreAll | backup.py:158-163 | definition of the restore copy loop; see `RestoreAllFrame`, `RestoreAllReads`, `RoundTrip` |
| Snapshots.SaveAllFrame | backup.py:77-82 | the backup copy loop touches only the destinations `<dir>/<base name>` |
| Snapshots.SaveAllStores | backup.py:77-82 | each manifest file that exists is saved with its content under its base name |
| Snapshots.RestoreOneEffect | backup.py:159-163 | one turn of the restore loop gives its entry the content of `<dir>/<base name>` when that exists, leaves it alone otherwise, and touches no other path |
| Snapshots.RestoreAllFrame | backup.py:158-163 | the restore copy loop touches only the recorded paths |
| Snapshots.RestoreAllReads | backup.py:158-163 | each recorded file gets the content saved under its base name, and stays as it was when the backup lacks it |
| Snapshots.ReadBackFrom | backup.py:158-163 | entries read back from sources that match an earlier disk hold that disk's saved content |
| Snapshots.RoundTrip | backup.py:77-82 | restoring a backup whose directory is unchanged brings every saved file back to its content when saved |
| Snapshots.RestoreFromEmptyDir | backup.py:158-163 | restoring from a directory that no longer holds anything leaves every file unchanged |
| Backup.BackupDir | backup.py:60-61 | definition of the directory `backups/backup_<version>_<timestamp>`; see `ManifestOutside`, `CreateRecordsSnapshot` |
| Backup.NewRecord | backup.py:85-92 | definition of the appended record; see `CreateRecordsSnapshot` |
| Backup.Truthy | backup.py:134 | definition of Python truthiness of an optional string argument: present and non-empty; see `Target`, `RestoreFailures` |
| Backup.DropDirs | backup.py:118-121 | definition of the eviction loop on disk; see `DropDirsEffect` |
| Backup.Trim | backup.py:107-125 | definition of `_cleanup_old_backups`; see `TrimRemovesEvicted`, `TrimStoreIdempotent` |
| Backup.Recorded | backup.py:57-92 | definition of `create_backup` up to its trim; see `CreateRecordsSnapshot`, `CreateSavesManifest`, `SnapshotKeepsOtherBackup` |
| Backup.Create | backup.py:57-98 | definition of `create_backup`; see `CreateRetention`, `CreateRecordsSnapshot`, `CreateSavesManifest`, `CreateThenCopyBack` |
| Backup.Delete | backup.py:34-55 | definition of `delete_backup`; see `DeleteEffect`, `DeleteRemovesOnly` |
| Backup.Restore | backup.py:127-166 | definition of `restore_backup`; see `RestoreFailures`, `RestoreSelectsFirst`, `RestoreRestoresTarget`, `RestoreOfOldestRestoresNothing` |
| Backup.Target | backup.py:133-149 | the restore target is a ledger record; with both keys given it exists iff some record has that key, and it has the key |
| Backup.DropDirsEffect | backup.py:118-121 | the eviction loop removes each evicted directory and, when it existed at the start, every path below it; nothing is created, surviving files keep their content, and every path outside the evicted directories is left as it was |
| Backup.DropDirsFrame | backup.py:118-121 | the eviction loop removes each evicted directory, creates nothing, keeps surviving files' content and leaves paths outside the evicted directories as they were |
| Backup.DropDirsClears | backup.py:118-121 | after the eviction loop nothing is left below an evicted directory that existed when the loop started, even when an earlier turn already removed it as part of an enclosing tree |
| Backup.DropDirsSnoc | backup.py:118-121 | removing the directories of a list and then one more is removing the directories of the extended list |
| Backup.TrimRemovesEvicted | backup.py:107-125 | cleanup leaves the trimmed ledger, no evicted directory and, below an evicted directory that existed, no path at all; every other path is untouched |
| Backup.TrimStoreIdempotent | backup.py:107-125 | for a bound ≥ 0, repeating cleanup changes neither ledger nor disk |
| Backup.CreateRetention | backup.py:94-98 | after `create_backup` the ledger has min(n+1, 5) records: as a multiset, the newest min(n+1, 5) of the old records and the new one together (the new record can itself be evicted when the clock is behind the ledger) |
| Backup.DistinctBasesOf | backup.py:68-80 | names placed after a '/' with no '/' of their own give distinct base names |
| Backup.ManifestBases | backup.py:68-75 | the six manifest entries have distinct base names, so no copy overwrites another |
| Backup.ManifestOutside | backup.py:60-75 | no manifest entry lies inside a backup directory |
| Backup.CreateRecordsSnapshot | backup.py:57-95 | the new record has the version, description, timestamp, the path `backups/backup_<v>_<t>` and the six-entry manifest; below five records nothing is evicted and each existing manifest file is saved under its base name |
| Backup.CreateSavesManifest | backup.py:57-98 | at any ledger size, each existing manifest file is saved under `<backup dir>/<base name>` with its content, and is still there after the trim unless an evicted directory holds it |
| Backup.CreateThenCopyBack | backup.py:57-98 | create then copy back: when the trim spares the new backup's copies, the `restore_backup` copy loop over the new directory gives every manifest file that existed before the backup its content from then |
| Backup.DeleteEffect | backup.py:34-55 | delete succeeds iff some record has the key; then the first such record leaves the ledger, the others keep their order, its directory is gone together with every path below it when it existed, and every path outside that directory keeps its existence and content; otherwise nothing changes |
| Backup.DeleteRemovesOnly | backup.py:36-50 | when the key first matches at index i, delete succeeds, `list.remove`s that record, and its disk is the `rmtree` of that record's directory when it existed: the directory and everything below it are gone, nothing is created and every path outside it is as it was |
| Backup.RestoreFailures | backup.py:129-141 | restore fails exactly on an empty ledger or an explicit key that matches nothing, and a failure changes nothing |
| Backup.RestoreSelectsFirst | backup.py:133-166 | on success the ledger is the auto_backup snapshot's. Files come back from the first matching record in ledger order (the record `delete_backup` would remove) when both keys are given; otherwise from the newest record, whatever the version |
| Backup.TargetIgnoresVersion | backup.py:134-149 | without a timestamp the version argument does not affect the choice |
| Backup.SaveAllKeeps | backup.py:77-82 | copying into a backup directory never removes a path |
| Backup.OldestIsEvicted | backup.py:94-98 | with five records, the snapshot's trim evicts the strictly oldest record and only that one |
| Backup.OnlyOldestEvicted | backup.py:111-118 | when the sorted split evicts one record and keeps none older than it, the evicted record is the strictly oldest |
| Backup.SnapshotDropsOldest | backup.py:98 | with five records, the auto_backup snapshot removes the strictly oldest backup's directory |
| Backup.RestoreOfOldestRestoresNothing | backup.py:153-166 | as written, an explicit restore of the oldest of five backups reports success but leaves every file as the snapshot left it |
| Backup.RestoreSafely | backup.py:153-166 | definition of the corrected restore, copying back before the snapshot's trim; see `RestoreSafelyRestoresTarget` |
| Backup.JoinSplit | backup.py:80 | two joins of plain names agree only in the same directory |
| Backup.SnapshotKeepsOtherBackup | backup.py:77-82 | the safety snapshot writes only inside its own directory |
| Backup.TrimAfterSnapshotSpares | backup.py:118-121 | paths outside every backup directory survive the trim |
| Backup.CreateEvicted | backup.py:94-98 | the records the trim at the end of `create_backup` evicts: none below five records, and only records of the ledger or the new record |
| Backup.CreateDisk | backup.py:94-98 | the disk after `create_backup` is its copies less the evicted directories |
| Backup.SnapshotSparesSources | backup.py:153 | another backup's saved copies come through the snapshot unchanged when its trim evicts no directory holding them |
| Backup.RestoreRestoresTarget | backup.py:127-166 | as written, restore succeeds and brings every saved file of its target back to its saved content whenever the snapshot's trim spares the target's copies |
| Backup.RestoreRestoresTargetBelowFive | backup.py:127-166 | as written, with fewer than five records restore brings every saved file of its target back |
| Backup.RestoreSafelyRestoresTarget | backup.py:153-166 | with the copy-back done before the trim, every file the selected backup holds is restored |
| Backup.EvictStep | backup.py:118-122 | one turn of the eviction loop |
| Backup.BackupManager.constructor | backup.py:13-24 | creates `backups/`; the ledger is the stored one, or empty when there is none; an absent ledger file counts as the empty ledger |
| Backup.BackupManager.SaveBackupInfo | backup.py:26-28 | the ledger file holds the in-memory ledger |
| Backup.BackupManager.GetBackupList | backup.py:30-32 | the ledger, in ledger order |
| Backup.BackupManager.DeleteBackup | backup.py:34-55 | the result and new state are `Delete` of the old state, whose properties `DeleteEffect` states; the ledger file stays in step |
| Backup.BackupManager.CreateBackup | backup.py:57-105 | always returns True; the new state is `Create` of the old (see `CreateRetention`, `CreateRecordsSnapshot`) |
| Backup.BackupManager.CopyInto | backup.py:77-82 | the copy loop has exactly the effect of `SaveAll` |
| Backup.BackupManager.CopyBack | backup.py:158-163 | the copy-back loop has exactly the effect of `RestoreAll` |
| Backup.BackupManager.EvictOne | backup.py:119-122 | one turn of the eviction loop: the directory goes when it exists, and the record leaves the ledger by `list.remove` |
| Backup.BackupManager.CleanupOldBackups | backup.py:107-125 | the new state is `Trim` of the old (see `TrimRemovesEvicted`, `TrimKeepsNewest`) |
| Backup.BackupManager.Evict | backup.py:118-122 | the eviction loop removes exactly the evicted records and their directories |
| Backup.BackupManager.FindTarget | backup.py:133-149 | the record restore picks is `Target` of the ledger: the first match when both keys are given, none when nothing matches, else the newest record |
| Backup.BackupManager.RestoreBackup | backup.py:127-170 | the result and new state are `Restore` of the old state, whose properties `RestoreFailures` and `RestoreSelectsFirst` state |
| Manage.IsDigits | manage.py:22 | definition of `str.isdigit` over ASCII: non-empty and digits only; see `ValidateVersionAccepts` |
| Manage.WithoutDots | manage.py:22 | `replace(".", "")` keeps exactly the characters other than '.' |
| Manage.ValidateVersion | manage.py:20-24 | an accepted value is returned unchanged; a rejected one gives the BadParameter message |
| Manage.ValidateVersionAccepts | manage.py:20-24 | a version is accepted iff it is absent, empty, or only digits and dots with at least one digit |
| Manage.ValidateVersionExamples | manage.py:20-24 | "1.0.0", "" and no value pass; "..." and "1.a" are rejected |
| Manage.Missing | manage.py:55-61 | the missing count is at most the number of files, and zero iff every file exists |
| Manage.CheckDirectories | manage.py:48-52 | one entry per required directory, true iff it is a directory |
| Manage.CheckFiles | manage.py:55-61 | one entry per project file, true iff it is a file; the total counts all files and the missing count is `Missing` |
| Manage.CheckProjectStatus | manage.py:38-63 | the report covers exactly the 4 directories and the 7 files; total is 7; missing is 0 iff every project file exists |
| Manage.Overwrite | manage.py:94-104 | writing from offset 0 in `r+` mode replaces a prefix and keeps any longer old tail |
| Manage.WithChangelog | manage.py:92-104 | definition of the CHANGELOG update; see `ChangelogPrepends` |
| Manage.ChangelogHeading | manage.py:97-104 | definition of the entry written ahead of the old text; see `ChangelogPrepends` |
| Manage.ChangelogPrepends | manage.py:92-104 | the new CHANGELOG is the entry followed by the whole old text, with the version right after the heading; no other file changes |
| Manage.BackupAllowed | manage.py:71-89 | the command goes on iff the `--version` callback accepts the version and the project has no missing file or `--force` is given; nothing changes |
| Manage.UpdateChangelog | manage.py:92-104 | the CHANGELOG step leaves the disk as `WithChangelog` of the old one (see `ChangelogPrepends`) |
| Manage.BackupCommand | manage.py:77-107 | proceeds iff the version is valid and the project is complete or forced. Then the CHANGELOG entry is written before the backup is taken; otherwise nothing changes |
| Manage.OfVersion | manage.py:189 | the selected records are at most the whole ledger |
| Manage.OtherVersions | manage.py:194-195 | the remaining records are at most the whole ledger |
| Manage.VersionMembers | manage.py:189 | the selection holds exactly the records of that version; the rest, exactly the others |
| Manage.NoneOfVersion | manage.py:190 | the selection is empty iff no record has the version |
| Manage.FirstOfVersionAt | manage.py:194-195 | the first record of the version sits at the first index with that version; removing it shortens the selection by one and keeps the other versions |
| Manage.RemoveFirstOfVersion | manage.py:194-195 | the key of the first record of the version first matches at that record, and removing it leaves the rest of the version and the other versions in order |
| Manage.DeleteFirstOfVersion | manage.py:194-195 | deleting the first selected record by its key succeeds, removes only that record, and its disk is the `rmtree` of that record's directory: the directory and, when it existed, every path below it are gone, nothing is created, and every path outside it is as it was |
| Manage.OnlyOtherVersions | manage.py:190 | with no record of the version, the remaining records are the whole ledger |
| Manage.DeleteTurn | manage.py:194-198 | one turn of the loop deletes the next selected record; the filesystem becomes the `rmtree` of its directory: that directory and, when it existed, everything below it are gone, nothing is created and every path outside it is as it was |
| Manage.DeleteEach | manage.py:194-198 | the loop leaves no record of the version, keeps the other versions in order, reports success for each record, and leaves the filesystem as the eviction of exactly the selected directories (see `DropDirsEffect`) |
| Manage.DeleteCommand | manage.py:186-198 | finds a record iff the version exists; then every record of the version is deleted (each reports success), the others remain in order, their directories are gone together with every path below one that existed, nothing is created, and every path outside them keeps its existence and content; otherwise nothing changes |
| Manage.RestoreCommand | manage.py:124-137 | an invalid version changes nothing; otherwise, after a temp snapshot unless forced, the result is `restore_backup` called with the version and no timestamp |
| Manage.NewestSurvivesTrim | backup.py:107-122 | a record newer than all others survives a trim that keeps at least one |
| Manage.NewestKept | backup.py:111-118 | when the sorted split keeps at least one record and none older than an evicted one, a record newer than all others is kept |
| Manage.LatestIsStrictlyNewest | backup.py:144-149 | a record strictly newer than all others is the one the latest-backup selection picks |
| Manage.TempSnapshotIsRestoreSource | manage.py:127-133 | as written, when the temp snapshot is newer than every record, restore picks the temp snapshot whatever version was asked for |
| Manage.RestoreVersion | manage.py:133 | definition of the corrected restore by the key of the newest record of the version; see `RestoreVersionRestoresThatVersion` |
| Manage.RestoreVersionRestoresThatVersion | manage.py:133 | the corrected restore succeeds iff the version exists, and copies back from the newest record of that version |

## Left out

- Exceptions from the filesystem and from JSON are not modelled. Every `try`/`except` path is dropped.
  - `create_backup` and `restore_backup` always return True once a backup is selected.
  - `delete_backup` always returns True for a key that exists.
  - A copy source that is a directory, or a CHANGELOG.md that is a directory, would raise in the source. The model treats only files as copy sources.
- Backup.BackupManager.CopyBack: `dst.parent.mkdir(exist_ok=True)` is modelled as always succeeding. The source raises when the grandparent directory is missing.
- JSON encoding of `backups/backup_info.json` is left out. Reading the file is modelled as the constructor's `stored` parameter (absent when there is no file). Writing it is modelled as the ghost field `persisted`.
- The clock is not modelled. The `%Y%m%d_%H%M%S` timestamp, the ISO `created_at`, the CHANGELOG date and the `temp_` stamp are parameters, and their formats are not checked.
- Manage.ValidateVersion: `str.isdigit` also accepts non-ASCII digits. The model accepts ASCII '0'-'9' only.
- `shutil.copy2` metadata (times, permissions) is not modelled; only content is.
- Paths are plain strings joined with '/'. No normalisation, symlinks, `..` or absolute paths are modelled.
- Manage.CheckProjectStatus: the report is modelled with maps, so dictionary insertion order (used only for display) is not kept.
- Logging, console output, click prompts and confirmations are left out. So are the `list` command (a display-only sort) and the `status` display.
- The `clean` command is only a call to `_cleanup_old_backups(keep)`. That call is modelled by Backup.BackupManager.CleanupOldBackups.
- Backup.BackupManager.GetBackupList returns the ledger as a value. The source returns the live list object, and this aliasing is not modelled.
- Concurrent processes sharing the ledger file are not modelled.
- The `manage.py` module-level manager is passed to each command as a parameter.
- database.py and main.py are not part of this model.

## Findings

| source | as written | input that shows it | evidently intended | confidence | as-written member | corrected member |
|---|---|---|---|---|---|---|
| backup.py:153 | `restore_backup` takes the `auto_backup` snapshot, whose `create_backup` trims the ledger to five, before reading the selected backup. The selected backup can be evicted and its directory deleted, so nothing is copied back, yet the call returns True | five backups, `restore_backup(v, t)` naming the oldest, clock later than every timestamp | the selected backup's files are copied back | not executed | Backup.RestoreOfOldestRestoresNothing | Backup.RestoreSafelyRestoresTarget |
| manage.py:133 | `restore --version v` calls `restore_backup(version)` with no timestamp, so the version is ignored and the newest backup is restored. Without `--force`, when the clock is past every recorded timestamp, that is the temp snapshot just taken, whatever version was asked for | `restore --version 1.0.0` with every recorded timestamp earlier than the clock | restore the newest backup of version 1.0.0 | not executed | Manage.TempSnapshotIsRestoreSource | Manage.RestoreVersionRestoresThatVersion |

The class methods and commands follow the code as written. The corrected behaviours are `Backup.RestoreSafely` (the copy-back before the trim) and `Manage.RestoreVersion` (restore by the full key of the newest record of the version). The lemmas in the last column are proved about them.

=== FILE: backup.dfy ===
/**
 * `BackupManager`: the ledger of backup records and the filesystem it
 * snapshots. The specification functions below give the whole effect of
 * each operation on a `Store` (ledger plus disk); the class methods perform
 * the operations step by step and are proved to have exactly that effect.
 */
module Backup {
  import opened Wrappers
  import opened Strings
  import opened Paths
  import opened Disks
  import opened Ledger
  import opened Snapshots

  /** The directory holding every backup and the ledger file. */
  const BackupRoot: Path := "backups"

  /** How many backups `create_backup` keeps after appending. */
  const KeepAfterCreate: int := 5

  /** Version label and description of the snapshot `restore_backup` takes first. */
  const AutoVersion: string := "auto_backup"
  const AutoDescription: string := "恢复前的自动备份"

  /** `files_to_backup`: the fixed manifest every backup records. */
  const Manifest: seq<Path> := [
    "main.py",
    "backup.py",
    "templates/index.html",
    "locales/zh_CN.yml",
    "locales/en_US.yml",
    "CHANGELOG.md"
  ]

  /** `backups/backup_<version>_<timestamp>`. */
  function BackupDir(version: string, timestamp: string): Path
  {
    Join(BackupRoot, "backup_" + version + "_" + timestamp)
  }

  /** The ledger together with the disk it describes. */
  datatype Store = Store(ledger: seq<Record>, disk: Disk)

  /** Success flag of an operation and the store it leaves. */
  datatype Outcome = Outcome(ok: bool, store: Store)

  /** The record `create_backup` appends. */
  function NewRecord(version: string, description: string, now: string, createdAt: string): Record
  {
    Record(version, now, description, BackupDir(version, now), Manifest, createdAt)
  }

  /** The eviction loop's effect on disk: each evicted directory that exists is removed. */
  function DropDirs(d: Disk, ev: seq<Record>): Disk
    decreases |ev|
  {
    if ev == [] then d
    else
      var d1 := if Exists(d, ev[0].path) then WithoutTree(d, ev[0].path) else d;
      DropDirs(d1, ev[1..])
  }

  /** `_cleanup_old_backups(keep)`. */
  function Trim(st: Store, keep: int): Store
  {
    if |st.ledger| > keep then
      var ev := Evicted(st.ledger, keep);
      Store(RemoveEach(st.ledger, ev), DropDirs(st.disk, ev))
    else st
  }

  /** `create_backup` up to its trim: the directory, the copies and the appended record. */
  function Recorded(st: Store, version: string, description: string, now: string, createdAt: string): Store
  {
    var r := NewRecord(version, description, now, createdAt);
    Store(st.ledger + [r], SaveAll(WithDir(st.disk, r.path), Manifest, r.path))
  }

  /** `create_backup(version, description)` at clock reading `now`. */
  function Create(st: Store, version: string, description: string, now: string, createdAt: string): Store
  {
    Trim(Recorded(st, version, description, now, createdAt), KeepAfterCreate)
  }

  /** `delete_backup(version, timestamp)`. */
  function Delete(st: Store, version: string, timestamp: string): Outcome
  {
    match FirstMatch(st.ledger, version, timestamp)
    case None => Outcome(false, st)
    case Some(i) =>
      var b := st.ledger[i];
      var d := if Exists(st.disk, b.path) then WithoutTree(st.disk, b.path) else st.disk;
      Outcome(true, Store(RemoveFirst(st.ledger, b), d))
  }

  /** Python truthiness of an optional string argument: neither `None` nor empty. */
  predicate Truthy(o: Option<string>)
  {
    o.Some? && o.value != ""
  }

  /** The record `restore_backup` restores from, chosen on the ledger as it is on entry. */
  function Target(s: seq<Record>, version: Option<string>, timestamp: Option<string>): (r: Option<Record>)
    requires s != []
    ensures r.Some? ==> r.value in s
    ensures Truthy(version) && Truthy(timestamp) ==>
      (r.Some? <==> exists y | y in s :: HasKey(y, version.value, timestamp.value))
      && (r.Some? ==> HasKey(r.value, version.value, timestamp.value))
  {
    if Truthy(version) && Truthy(timestamp) then
      var matching := Matching(s, version.value, timestamp.value);
      if matching == [] then None else Some(matching[0])
    else Some(Latest(s))
  }

  /** `restore_backup(version, timestamp)` with the safety snapshot taken at `now`. */
  function Restore(st: Store, version: Option<string>, timestamp: Option<string>,
                   now: string, createdAt: string): Outcome
  {
    if st.ledger == [] then Outcome(false, st)
    else match Target(st.ledger, version, timestamp)
      case None => Outcome(false, st)
      case Some(b) =>
        var st1 := Create(st, AutoVersion, AutoDescription, now, createdAt);
        Outcome(true, Store(st1.ledger, RestoreAll(st1.disk, b.files, b.path)))
  }

  /** A path that lies inside no evicted record's directory. */
  ghost predicate Spared(p: Path, ev: seq<Record>)
  {
    forall e | e in ev :: !Within(p, e.path)
  }

  /**
   * The eviction loop on disk: every evicted directory is gone, and so is
   * everything below a directory that existed when the loop started;
   * nothing comes into existence, surviving files keep their content, and a
   * path inside no evicted directory is left exactly as it was.
   */
  lemma DropDirsEffect(d: Disk, ev: seq<Record>)
    ensures forall e | e in ev :: !Exists(DropDirs(d, ev), e.path)
    ensures forall e, p | e in ev && Exists(d, e.path) && Within(p, e.path) :: !Exists(DropDirs(d, ev), p)
    ensures forall p :: Exists(DropDirs(d, ev), p) ==> Exists(d, p)
    ensures forall p | p in DropDirs(d, ev).files :: p in d.files && DropDirs(d, ev).files[p] == d.files[p]
    ensures forall p | Spared(p, ev) :: (Exists(DropDirs(d, ev), p) <==> Exists(d, p)) && SameFile(DropDirs(d, ev), d, p)
  {
    DropDirsFrame(d, ev);
    DropDirsClears(d, ev);
  }

  /** `rmtree` of each existing evicted directory leaves nothing below a directory that existed at the start. */
  lemma {:induction false} DropDirsClears(d: Disk, ev: seq<Record>)
    ensures forall e, p | e in ev && Exists(d, e.path) && Within(p, e.path) :: !Exists(DropDirs(d, ev), p)
    decreases |ev|
  {
    if ev != [] {
      var d1 := if Exists(d, ev[0].path) then WithoutTree(d, ev[0].path) else d;
      var rest := ev[1..];
      DropDirsClears(d1, rest);
      DropDirsFrame(d1, rest);
      forall e, p | e in ev && Exists(d, e.path) && Within(p, e.path)
        ensures !Exists(DropDirs(d, ev), p)
      {
        if Exists(d1, e.path) {
          assert e != ev[0];
          assert e in rest;
        } else {
          WithinTransitive(p, e.path, ev[0].path);
        }
      }
    }
  }

  /** The frame half of the eviction loop: what it removes, and what it leaves as it was. */
  lemma {:induction false} DropDirsFrame(d: Disk, ev: seq<Record>)
    ensures forall e | e in ev :: !Exists(DropDirs(d, ev), e.path)
    ensures forall p :: Exists(DropDirs(d, ev), p) ==> Exists(d, p)
    ensures forall p | p in DropDirs(d, ev).files :: p in d.files && DropDirs(d, ev).files[p] == d.files[p]
    ensures forall p | Spared(p, ev) :: (Exists(DropDirs(d, ev), p) <==> Exists(d, p)) && SameFile(DropDirs(d, ev), d, p)
    decreases |ev|
  {
    if ev != [] {
      var d1 := if Exists(d, ev[0].path) then WithoutTree(d, ev[0].path) else d;
      DropDirsFrame(d1, ev[1..]);
      forall p | Spared(p, ev)
        ensures Spared(p, ev[1..]) && !Within(p, ev[0].path)
      {
        assert ev[0] in ev;
        forall e | e in ev[1..]
          ensures !Within(p, e.path)
        {
          assert e in ev;
        }
      }
    }
  }

  /**
   * `_cleanup_old_backups(keep)` on the store: the ledger becomes the
   * trimmed ledger, every evicted record's directory no longer exists,
   * nothing is left below one that existed, and every path outside the
   * evicted directories is untouched.
   */
  lemma TrimRemovesEvicted(st: Store, keep: int)
    requires |st.ledger| > keep
    ensures Trim(st, keep).ledger == Trimmed(st.ledger, keep)
    ensures forall e | e in Evicted(st.ledger, keep) :: !Exists(Trim(st, keep).disk, e.path)
    ensures forall e, p | e in Evicted(st.ledger, keep) && Exists(st.disk, e.path) && Within(p, e.path) ::
      !Exists(Trim(st, keep).disk, p)
    ensures forall p | Spared(p, Evicted(st.ledger, keep)) ::
      (Exists(Trim(st, keep).disk, p) <==> Exists(st.disk, p)) && SameFile(Trim(st, keep).disk, st.disk, p)
  {
    DropDirsEffect(st.disk, Evicted(st.ledger, keep));
  }

  /** A second trim with the same bound changes neither the ledger nor the disk. */
  lemma TrimStoreIdempotent(st: Store, keep: int)
    requires keep >= 0
    ensures Trim(Trim(st, keep), keep) == Trim(st, keep)
  {
    TrimmedLength(st.ledger, keep);
  }

  /**
   * Retention after `create_backup`: from n records the ledger goes to
   * min(n + 1, 5), and those are, as a multiset, the newest min(n + 1, 5)
   * of the old records and the new one together.
   */
  lemma CreateRetention(st: Store, version: string, description: string, now: string, createdAt: string)
    ensures var n := |st.ledger|;
      |Create(st, version, description, now, createdAt).ledger| == if n + 1 > KeepAfterCreate then KeepAfterCreate else n + 1
    ensures var s := st.ledger + [NewRecord(version, description, now, createdAt)];
      var kept := Create(st, version, description, now, createdAt).ledger;
      multiset(kept) == multiset(NewestFirst(s)[..|kept|])
  {
    var s := st.ledger + [NewRecord(version, description, now, createdAt)];
    TrimmedLength(s, KeepAfterCreate);
    if |s| > KeepAfterCreate {
      TrimmedSurvivors(s, KeepAfterCreate);
    } else {
      assert NewestFirst(s)[..|s|] == NewestFirst(s);
    }
  }

  /** Paths built as a directory prefix ending in '/' plus distinct plain names have distinct base names. */
  lemma DistinctBasesOf(m: seq<Path>, dirs: seq<Path>, names: seq<Path>)
    requires |m| == |dirs| == |names|
    requires forall i | 0 <= i < |m| ::
      m[i] == dirs[i] + names[i] && '/' !in names[i] && (dirs[i] == [] || dirs[i][|dirs[i]| - 1] == '/')
    requires forall i, j | 0 <= i < j < |names| :: names[i] != names[j]
    ensures DistinctBases(m)
  {
    forall i | 0 <= i < |m|
      ensures Base(m[i]) == names[i]
    {
      BaseAfterSlash(dirs[i], names[i]);
    }
  }

  /** The manifest's six base names are distinct. */
  lemma ManifestBases()
    ensures DistinctBases(Manifest)
  {
    DistinctBasesOf(Manifest, ["", "", "templates/", "locales/", "locales/", ""],
      ["main.py", "backup.py", "index.html", "zh_CN.yml", "en_US.yml", "CHANGELOG.md"]);
  }

  /** No manifest entry lies inside a backup directory. */
  lemma ManifestOutside(version: string, timestamp: string)
    ensures OutsideOf(Manifest, BackupDir(version, timestamp))
  {
    var dir := BackupDir(version, timestamp);
    assert |dir| >= 16 && dir[0] == 'b';
    forall f | f in Manifest
      ensures !Within(f, dir)
    {
      assert |f| < |dir| + 1 || f[0] != 'b';
    }
  }

  /**
   * `create_backup` appends one record with the given version and
   * description, path `backups/backup_<version>_<timestamp>` and the whole
   * six-entry manifest, and saves each existing manifest file into that
   * directory under its base name; when fewer than five records were
   * present nothing is evicted.
   */
  lemma CreateRecordsSnapshot(st: Store, version: string, description: string, now: string, createdAt: string)
    ensures var r := NewRecord(version, description, now, createdAt);
      r.version == version && r.description == description && r.timestamp == now
      && r.path == "backups/backup_" + version + "_" + now && r.files == Manifest && |r.files| == 6
    ensures |st.ledger| < KeepAfterCreate ==>
      var r := NewRecord(version, description, now, createdAt);
      var after := Create(st, version, description, now, createdAt);
      after.ledger == st.ledger + [r]
      && forall f | f in Manifest && f in st.disk.files ::
        Join(r.path, Base(f)) in after.disk.files && after.disk.files[Join(r.path, Base(f))] == st.disk.files[f]
  {
    var r := NewRecord(version, description, now, createdAt);
    ManifestBases();
    ManifestOutside(version, now);
    SaveAllStores(WithDir(st.disk, r.path), Manifest, r.path);
  }

  /** The records the trim at the end of `create_backup` evicts. */
  function CreateEvicted(st: Store, version: string, description: string, now: string, createdAt: string): (ev: seq<Record>)
    ensures |st.ledger| < KeepAfterCreate ==> ev == []
    ensures multiset(ev) <= multiset(st.ledger + [NewRecord(version, description, now, createdAt)])
  {
    var s := Recorded(st, version, description, now, createdAt).ledger;
    if |s| > KeepAfterCreate then Evicted(s, KeepAfterCreate) else []
  }

  /** The disk after `create_backup`: the copies of `Recorded`, less the directories its trim evicts. */
  lemma CreateDisk(st: Store, version: string, description: string, now: string, createdAt: string)
    ensures Create(st, version, description, now, createdAt).disk
         == DropDirs(Recorded(st, version, description, now, createdAt).disk, CreateEvicted(st, version, description, now, createdAt))
  {
  }

  /**
   * `create_backup` at any ledger size: each existing manifest file is saved
   * as `<backup dir>/<base name>` with its content, and that copy is still
   * there after the trim unless the trim evicts a directory holding it.
   */
  lemma CreateSavesManifest(st: Store, version: string, description: string, now: string, createdAt: string)
    ensures var r := NewRecord(version, description, now, createdAt);
      var after := Create(st, version, description, now, createdAt);
      forall f | f in Manifest && f in st.disk.files
                 && Spared(Join(r.path, Base(f)), CreateEvicted(st, version, description, now, createdAt)) ::
        Join(r.path, Base(f)) in after.disk.files && after.disk.files[Join(r.path, Base(f))] == st.disk.files[f]
  {
    var r := NewRecord(version, description, now, createdAt);
    var d1 := Recorded(st, version, description, now, createdAt).disk;
    ManifestBases();
    ManifestOutside(version, now);
    SaveAllStores(WithDir(st.disk, r.path), Manifest, r.path);
    CreateDisk(st, version, description, now, createdAt);
    DropDirsEffect(d1, CreateEvicted(st, version, description, now, createdAt));
  }

  /**
   * Create then restore: when the trim spares the new backup's copies,
   * copying them back from the new directory (the loop of
   * `restore_backup`) yields every manifest file that existed before
   * `create_backup`, with the content it had then.
   */
  lemma CreateThenCopyBack(st: Store, version: string, description: string, now: string, createdAt: string)
    requires var r := NewRecord(version, description, now, createdAt);
      forall f | f in Manifest :: Spared(Join(r.path, Base(f)), CreateEvicted(st, version, description, now, createdAt))
    ensures var r := NewRecord(version, description, now, createdAt);
      var back := RestoreAll(Create(st, version, description, now, createdAt).disk, Manifest, r.path);
      forall f | f in Manifest && f in st.disk.files :: f in back.files && back.files[f] == st.disk.files[f]
  {
    var r := NewRecord(version, description, now, createdAt);
    var d0 := WithDir(st.disk, r.path);
    var d1 := Recorded(st, version, description, now, createdAt).disk;
    var ev := CreateEvicted(st, version, description, now, createdAt);
    ManifestBases();
    ManifestOutside(version, now);
    CreateDisk(st, version, description, now, createdAt);
    DropDirsEffect(d1, ev);
    assert d1 == SaveAll(d0, Manifest, r.path);
    RoundTrip(d0, Manifest, r.path, Create(st, version, description, now, createdAt).disk);
  }

  /**
   * `delete_backup`: it succeeds exactly when some record has the key;
   * then the first such record is taken out, all others stay in order, its
   * directory no longer exists (nor, when it existed, anything below it) and
   * every path outside that directory is left as it was; otherwise nothing
   * changes.
   */
  lemma DeleteEffect(st: Store, version: string, timestamp: string)
    ensures var o := Delete(st, version, timestamp);
      o.ok <==> exists y | y in st.ledger :: HasKey(y, version, timestamp)
    ensures !Delete(st, version, timestamp).ok ==> Delete(st, version, timestamp).store == st
    ensures var o := Delete(st, version, timestamp);
      o.ok ==> (exists i :: 0 <= i < |st.ledger| && HasKey(st.ledger[i], version, timestamp)
                  && (forall j :: 0 <= j < i ==> !HasKey(st.ledger[j], version, timestamp))
                  && o.store.ledger == st.ledger[..i] + st.ledger[i + 1..]
                  && !Exists(o.store.disk, st.ledger[i].path)
                  && (Exists(st.disk, st.ledger[i].path) ==>
                        forall p | Within(p, st.ledger[i].path) :: !Exists(o.store.disk, p))
                  && forall p | !Within(p, st.ledger[i].path) ::
                       (Exists(o.store.disk, p) <==> Exists(st.disk, p)) && SameFile(o.store.disk, st.disk, p))
  {
    match FirstMatch(st.ledger, version, timestamp)
    case None =>
    case Some(i) =>
      var b := st.ledger[i];
      assert b !in st.ledger[..i];
      RemoveFirstAt(st.ledger, b, i);
      DeleteRemovesOnly(st, version, timestamp, i);
  }

  /**
   * When the key first matches at index `i`, `delete_backup` succeeds,
   * takes that record out with `list.remove`, and on disk removes its
   * directory, everything below it when it existed, and nothing outside it:
   * one turn of the eviction loop `DropDirs`.
   */
  lemma DeleteRemovesOnly(st: Store, version: string, timestamp: string, i: nat)
    requires FirstMatch(st.ledger, version, timestamp) == Some(i)
    ensures var o := Delete(st, version, timestamp);
      i < |st.ledger| && o.ok && o.store.ledger == RemoveFirst(st.ledger, st.ledger[i])
      && o.store.disk == DropDirs(st.disk, [st.ledger[i]])
      && !Exists(o.store.disk, st.ledger[i].path)
      && (Exists(st.disk, st.ledger[i].path) ==> forall p | Within(p, st.ledger[i].path) :: !Exists(o.store.disk, p))
      && (forall p :: Exists(o.store.disk, p) ==> Exists(st.disk, p))
      && forall p | !Within(p, st.ledger[i].path) ::
           (Exists(o.store.disk, p) <==> Exists(st.disk, p)) && SameFile(o.store.disk, st.disk, p)
  {
    var b := st.ledger[i];
    var d := if Exists(st.disk, b.path) then WithoutTree(st.disk, b.path) else st.disk;
    assert DropDirs(st.disk, [b]) == DropDirs(d, []);
  }

  /** The eviction loop over `s + [x]` is the loop over `s` followed by one more turn for `x`. */
  lemma {:induction false} DropDirsSnoc(d: Disk, s: seq<Record>, x: Record)
    ensures DropDirs(d, s + [x]) == DropDirs(DropDirs(d, s), [x])
    decreases |s|
  {
    if s == [] {
      assert s + [x] == [x];
    } else {
      var d1 := if Exists(d, s[0].path) then WithoutTree(d, s[0].path) else d;
      assert (s + [x])[0] == s[0] && (s + [x])[1..] == s[1..] + [x];
      DropDirsSnoc(d1, s[1..], x);
    }
  }

  /**
   * `restore_backup` fails exactly on an empty ledger or on an explicit key
   * that matches nothing, and a failure leaves the store as it was.
   */
  lemma RestoreFailures(st: Store, version: Option<string>, timestamp: Option<string>, now: string, createdAt: string)
    ensures var o := Restore(st, version, timestamp, now, createdAt);
      !o.ok <==> (st.ledger == []
        || (Truthy(version) && Truthy(timestamp)
            && forall y | y in st.ledger :: !HasKey(y, version.value, timestamp.value)))
    ensures !Restore(st, version, timestamp, now, createdAt).ok ==> Restore(st, version, timestamp, now, createdAt).store == st
  {
  }

  /**
   * On success `restore_backup` has taken the `auto_backup` snapshot and
   * copied back from a record of the ledger as it was on entry: the first
   * record with that key in ledger order (the one `delete_backup` would
   * remove) when both are given, otherwise the newest record (the
   * earliest in ledger order among equal timestamps), whatever the version.
   */
  lemma RestoreSelectsFirst(st: Store, version: Option<string>, timestamp: Option<string>, now: string, createdAt: string)
    ensures var o := Restore(st, version, timestamp, now, createdAt);
      var snap := Create(st, AutoVersion, AutoDescription, now, createdAt);
      o.ok ==> (o.store.ledger == snap.ledger
        && exists b | b in st.ledger ::
          o.store.disk == RestoreAll(snap.disk, b.files, b.path)
          && (Truthy(version) && Truthy(timestamp) ==>
                HasKey(b, version.value, timestamp.value)
                && FirstMatch(st.ledger, version.value, timestamp.value).Some?
                && b == st.ledger[FirstMatch(st.ledger, version.value, timestamp.value).value])
          && (!(Truthy(version) && Truthy(timestamp)) ==>
                b == Latest(st.ledger) && forall y | y in st.ledger :: !Older(b, y)))
  {
    if st.ledger != [] {
      LatestIsNewest(st.ledger);
      if Restore(st, version, timestamp, now, createdAt).ok && Truthy(version) && Truthy(timestamp) {
        MatchingHead(st.ledger, version.value, timestamp.value);
      }
    }
  }

  /** Without a timestamp the version argument plays no part in the choice. */
  lemma TargetIgnoresVersion(s: seq<Record>, v1: Option<string>, v2: Option<string>, timestamp: Option<string>)
    requires s != [] && !Truthy(timestamp)
    ensures Target(s, v1, timestamp) == Target(s, v2, timestamp) == Some(Latest(s))
  {
  }

  /** Copying into a backup directory only ever adds paths. */
  lemma {:induction false} SaveAllKeeps(d: Disk, m: seq<Path>, dir: Path, p: Path)
    requires Exists(d, p)
    ensures Exists(SaveAll(d, m, dir), p)
    decreases |m|
  {
    if m != [] {
      SaveAllKeeps(SaveOne(d, m[0], dir), m[1..], dir, p);
    }
  }

  /**
   * With five records, a record strictly older than every other one and
   * than a newly appended record is the one and only record the trim to
   * five evicts.
   */
  lemma OldestIsEvicted(s: seq<Record>, b: Record, rec: Record)
    requires |s| == KeepAfterCreate && b in s
    requires forall y | y in s && y != b :: Older(b, y)
    requires Older(b, rec)
    ensures Evicted(s + [rec], KeepAfterCreate) == [b]
  {
    var s6 := s + [rec];
    TrimKeepsNewest(s6, KeepAfterCreate);
    assert multiset(Trimmed(s6, KeepAfterCreate)) + multiset(Evicted(s6, KeepAfterCreate)) == multiset(s6);
    OnlyOldestEvicted(s6, Trimmed(s6, KeepAfterCreate), Evicted(s6, KeepAfterCreate), b);
  }

  /**
   * When a split of `s` into kept and evicted records evicts one record and
   * keeps no record older than it, the evicted record is the strictly
   * oldest one.
   */
  lemma OnlyOldestEvicted(s: seq<Record>, kept: seq<Record>, ev: seq<Record>, b: Record)
    requires |ev| == 1 && multiset(kept) + multiset(ev) == multiset(s)
    requires forall r, e | r in kept && e in ev :: !Older(r, e)
    requires b in s && forall y | y in s && y != b :: Older(b, y)
    ensures ev == [b]
  {
    var e := ev[0];
    assert ev == [e];
    assert e in multiset(s);
    assert b in multiset(s);
    assert b in kept || b == e;
    if b in kept {
      assert !Older(b, e);
    }
  }

  /**
   * With five records, the `auto_backup` snapshot of a clock past every
   * timestamp removes the directory of the strictly oldest record and
   * everything below it.
   */
  lemma SnapshotDropsOldest(st: Store, b: Record, now: string, createdAt: string)
    requires |st.ledger| == KeepAfterCreate && b in st.ledger
    requires forall y | y in st.ledger && y != b :: Older(b, y)
    requires forall y | y in st.ledger :: LexLess(y.timestamp, now)
    requires Exists(st.disk, b.path)
    ensures var after := Create(st, AutoVersion, AutoDescription, now, createdAt);
      !Exists(after.disk, b.path) && forall p | p in after.disk.files :: !Within(p, b.path)
  {
    var rec := NewRecord(AutoVersion, AutoDescription, now, createdAt);
    OldestIsEvicted(st.ledger, b, rec);
    var st1 := Recorded(st, AutoVersion, AutoDescription, now, createdAt);
    SaveAllKeeps(WithDir(st.disk, rec.path), Manifest, rec.path, b.path);
    var gone := WithoutTree(st1.disk, b.path);
    assert DropDirs(st1.disk, [b]) == gone by {
      assert DropDirs(st1.disk, [b]) == DropDirs(gone, []);
    }
    assert Create(st, AutoVersion, AutoDescription, now, createdAt).disk == gone;
  }

  /**
   * With five records, explicitly restoring the strictly oldest one while
   * the clock is past every timestamp: the `auto_backup` snapshot's trim
   * evicts exactly the selected record and removes its directory, so every
   * copy is skipped, yet the call reports success.
   */
  lemma RestoreOfOldestRestoresNothing(st: Store, version: Option<string>, timestamp: Option<string>,
                                       b: Record, now: string, createdAt: string)
    requires |st.ledger| == KeepAfterCreate
    requires Truthy(version) && Truthy(timestamp)
    requires b in st.ledger && HasKey(b, version.value, timestamp.value)
    requires forall y | y in st.ledger && y != b :: Older(b, y)
    requires forall y | y in st.ledger :: LexLess(y.timestamp, now)
    requires Exists(st.disk, b.path)
    ensures Restore(st, version, timestamp, now, createdAt).ok
    ensures !Exists(Create(st, AutoVersion, AutoDescription, now, createdAt).disk, b.path)
    ensures Restore(st, version, timestamp, now, createdAt).store.disk.files
         == Create(st, AutoVersion, AutoDescription, now, createdAt).disk.files
  {
    LexLessIrreflexive(b.timestamp);
    assert Target(st.ledger, version, timestamp) == Some(b) by {
      var c := Target(st.ledger, version, timestamp).value;
      assert c.timestamp == b.timestamp && !Older(b, c);
    }
    SnapshotDropsOldest(st, b, now, createdAt);
    RestoreFromEmptyDir(Create(st, AutoVersion, AutoDescription, now, createdAt).disk, b.files, b.path);
  }

  /**
   * `restore_backup` as written brings back every file of the selected
   * backup that was saved, provided the snapshot's trim evicts no directory
   * holding one of those saved copies (always so below five records).
   */
  lemma RestoreRestoresTarget(st: Store, version: Option<string>, timestamp: Option<string>,
                              now: string, createdAt: string)
    requires st.ledger != [] && Target(st.ledger, version, timestamp).Some?
    requires var b := Target(st.ledger, version, timestamp).value;
      DistinctBases(b.files) && OutsideOf(b.files, b.path)
      && b.path != BackupDir(AutoVersion, now)
      && forall f | f in b.files :: Spared(Join(b.path, Base(f)), CreateEvicted(st, AutoVersion, AutoDescription, now, createdAt))
    ensures Restore(st, version, timestamp, now, createdAt).ok
    ensures var b := Target(st.ledger, version, timestamp).value;
      var d := Restore(st, version, timestamp, now, createdAt).store.disk;
      forall f | f in b.files && Join(b.path, Base(f)) in st.disk.files ::
        f in d.files && d.files[f] == st.disk.files[Join(b.path, Base(f))]
  {
    var b := Target(st.ledger, version, timestamp).value;
    var snap := Create(st, AutoVersion, AutoDescription, now, createdAt);
    var r := RestoreAll(snap.disk, b.files, b.path);
    assert Restore(st, version, timestamp, now, createdAt) == Outcome(true, Store(snap.ledger, r));
    SnapshotSparesSources(st, b.path, b.files, now, createdAt);
    RestoreAllReads(snap.disk, b.files, b.path);
    ReadBackFrom(r, snap.disk, st.disk, b.files, b.path);
  }

  /**
   * The saved copies `<dir>/<base name>` of another backup come through the
   * `auto_backup` snapshot unchanged when its trim evicts no directory
   * holding them.
   */
  lemma SnapshotSparesSources(st: Store, dir: Path, files: seq<Path>, now: string, createdAt: string)
    requires dir != BackupDir(AutoVersion, now)
    requires forall f | f in files :: Spared(Join(dir, Base(f)), CreateEvicted(st, AutoVersion, AutoDescription, now, createdAt))
    ensures forall f | f in files ::
      SameFile(Create(st, AutoVersion, AutoDescription, now, createdAt).disk, st.disk, Join(dir, Base(f)))
  {
    var d1 := Recorded(st, AutoVersion, AutoDescription, now, createdAt).disk;
    var ev := CreateEvicted(st, AutoVersion, AutoDescription, now, createdAt);
    CreateDisk(st, AutoVersion, AutoDescription, now, createdAt);
    SnapshotKeepsOtherBackup(st, dir, files, now, createdAt);
    DropDirsEffect(d1, ev);
    forall f | f in files
      ensures SameFile(DropDirs(d1, ev), st.disk, Join(dir, Base(f)))
    {
      var p := Join(dir, Base(f));
      assert SameFile(DropDirs(d1, ev), d1, p);
      assert SameFile(d1, st.disk, p);
    }
  }

  /** Below five records the snapshot evicts nothing, so restore brings back every saved file of its target. */
  lemma RestoreRestoresTargetBelowFive(st: Store, version: Option<string>, timestamp: Option<string>,
                                       now: string, createdAt: string)
    requires 0 < |st.ledger| < KeepAfterCreate && Target(st.ledger, version, timestamp).Some?
    requires var b := Target(st.ledger, version, timestamp).value;
      DistinctBases(b.files) && OutsideOf(b.files, b.path) && b.path != BackupDir(AutoVersion, now)
    ensures Restore(st, version, timestamp, now, createdAt).ok
    ensures var b := Target(st.ledger, version, timestamp).value;
      var d := Restore(st, version, timestamp, now, createdAt).store.disk;
      forall f | f in b.files && Join(b.path, Base(f)) in st.disk.files ::
        f in d.files && d.files[f] == st.disk.files[Join(b.path, Base(f))]
  {
    RestoreRestoresTarget(st, version, timestamp, now, createdAt);
  }

  /**
   * Restore with the copy-back done before the snapshot's trim, so the
   * selected backup cannot be evicted before it is read.
   */
  function RestoreSafely(st: Store, version: Option<string>, timestamp: Option<string>,
                         now: string, createdAt: string): Outcome
  {
    if st.ledger == [] then Outcome(false, st)
    else match Target(st.ledger, version, timestamp)
      case None => Outcome(false, st)
      case Some(b) =>
        var st1 := Recorded(st, AutoVersion, AutoDescription, now, createdAt);
        var d2 := RestoreAll(st1.disk, b.files, b.path);
        Outcome(true, Trim(Store(st1.ledger, d2), KeepAfterCreate))
  }

  /** Two joins of names without '/' are equal only in the same directory. */
  lemma JoinSplit(p: Path, x: Path, q: Path, y: Path)
    requires '/' !in x && '/' !in y && Join(p, x) == Join(q, y)
    ensures p == q
  {
    ParentOfJoin(p, x);
    ParentOfJoin(q, y);
  }

  /** The safety snapshot writes only inside its own directory, so another backup's files are untouched. */
  lemma SnapshotKeepsOtherBackup(st: Store, dir: Path, files: seq<Path>, now: string, createdAt: string)
    requires dir != BackupDir(AutoVersion, now)
    ensures forall f | f in files ::
      SameFile(Recorded(st, AutoVersion, AutoDescription, now, createdAt).disk, st.disk, Join(dir, Base(f)))
  {
    var auto := BackupDir(AutoVersion, now);
    var d0 := WithDir(st.disk, auto);
    forall f | f in files
      ensures SameFile(SaveAll(d0, Manifest, auto), d0, Join(dir, Base(f)))
    {
      forall g | g in Manifest
        ensures Join(dir, Base(f)) != Join(auto, Base(g))
      {
        if Join(dir, Base(f)) == Join(auto, Base(g)) {
          JoinSplit(dir, Base(f), auto, Base(g));
        }
      }
      SaveAllFrame(d0, Manifest, auto, Join(dir, Base(f)));
    }
  }

  /** Paths outside every directory of the ledger and of the new snapshot survive the snapshot's trim. */
  lemma TrimAfterSnapshotSpares(st: Store, d: Disk, paths: seq<Path>, now: string, createdAt: string)
    requires forall f | f in paths :: !Within(f, BackupDir(AutoVersion, now))
    requires forall f, y | f in paths && y in st.ledger :: !Within(f, y.path)
    ensures var st2 := Store(Recorded(st, AutoVersion, AutoDescription, now, createdAt).ledger, d);
      forall f | f in paths :: SameFile(Trim(st2, KeepAfterCreate).disk, d, f)
  {
    var rec := NewRecord(AutoVersion, AutoDescription, now, createdAt);
    var st2 := Store(st.ledger + [rec], d);
    if |st2.ledger| > KeepAfterCreate {
      var ev := Evicted(st2.ledger, KeepAfterCreate);
      forall f | f in paths
        ensures Spared(f, ev)
      {
        forall e | e in ev
          ensures !Within(f, e.path)
        {
          assert multiset(ev)[e] > 0;
          assert e in st2.ledger;
        }
      }
      TrimRemovesEvicted(st2, KeepAfterCreate);
    }
  }

  /**
   * The corrected restore brings back every file the selected backup holds,
   * provided the restored paths lie outside every backup directory and the
   * selected backup is not the snapshot's own directory.
   */
  lemma RestoreSafelyRestoresTarget(st: Store, version: Option<string>, timestamp: Option<string>,
                                    now: string, createdAt: string)
    requires st.ledger != [] && Target(st.ledger, version, timestamp).Some?
    requires var b := Target(st.ledger, version, timestamp).value;
      DistinctBases(b.files) && OutsideOf(b.files, b.path)
      && b.path != BackupDir(AutoVersion, now)
      && (forall f | f in b.files :: !Within(f, BackupDir(AutoVersion, now)))
      && (forall f, y | f in b.files && y in st.ledger :: !Within(f, y.path))
    ensures RestoreSafely(st, version, timestamp, now, createdAt).ok
    ensures var b := Target(st.ledger, version, timestamp).value;
      var d := RestoreSafely(st, version, timestamp, now, createdAt).store.disk;
      forall f | f in b.files && Join(b.path, Base(f)) in st.disk.files ::
        f in d.files && d.files[f] == st.disk.files[Join(b.path, Base(f))]
  {
    var b := Target(st.ledger, version, timestamp).value;
    var st1 := Recorded(st, AutoVersion, AutoDescription, now, createdAt);
    SnapshotKeepsOtherBackup(st, b.path, b.files, now, createdAt);
    var d2 := RestoreAll(st1.disk, b.files, b.path);
    RestoreAllReads(st1.disk, b.files, b.path);
    TrimAfterSnapshotSpares(st, d2, b.files, now, createdAt);
  }

  /** One turn of the eviction loop keeps the loop's invariant: what is left to do still yields the same result. */
  lemma EvictStep(s: seq<Record>, d: Disk, excess: seq<Record>, i: nat, s0: seq<Record>, d0: Disk)
    requires i < |excess| && multiset(excess[i..]) <= multiset(s) && multiset(excess) <= multiset(s0)
    requires RemoveEach(s, excess[i..]) == RemoveEach(s0, excess)
    requires DropDirs(d, excess[i..]) == DropDirs(d0, excess)
    ensures excess[i] in s
    ensures multiset(excess[i + 1..]) <= multiset(RemoveFirst(s, excess[i]))
    ensures RemoveEach(RemoveFirst(s, excess[i]), excess[i + 1..]) == RemoveEach(s0, excess)
    ensures var d1 := if Exists(d, excess[i].path) then WithoutTree(d, excess[i].path) else d;
      DropDirs(d1, excess[i + 1..]) == DropDirs(d0, excess)
  {
    var ev := excess[i..];
    assert ev[0] == excess[i] && ev[1..] == excess[i + 1..];
    RemainderFits(s, ev);
  }

  class BackupManager {
    /** The filesystem the manager works on. */
    const fs: FileSystem
    /** `backup_info["backups"]`, the in-memory ledger. */
    var backups: seq<Record>
    /** The `backups` array last written to `backups/backup_info.json`. */
    ghost var persisted: seq<Record>

    /** The ledger file always mirrors the in-memory ledger between operations. */
    ghost predicate Valid()
      reads this
    {
      persisted == backups
    }

    function Snapshot(): Store
      reads this, fs
    {
      Store(backups, fs.View())
    }

    /**
     * `__init__`: create the backup root and load the ledger file, or start
     * empty when there is none; an absent ledger file counts as the empty
     * ledger.
     */
    constructor (fs: FileSystem, stored: Option<seq<Record>>)
      modifies fs
      ensures this.fs == fs && Valid()
      ensures backups == stored.GetOr([])
      ensures fs.View() == WithDir(old(fs.View()), BackupRoot)
    {
      this.fs := fs;
      backups := stored.GetOr([]);
      persisted := stored.GetOr([]);
      new;
      fs.Mkdir(BackupRoot);
    }

    /** `save_backup_info`: rewrite the whole ledger file. */
    method SaveBackupInfo()
      modifies this`persisted
      ensures Valid()
    {
      persisted := backups;
    }

    /** `get_backup_list`: the ledger itself, in ledger order. */
    function GetBackupList(): (r: seq<Record>)
      reads this
      ensures r == backups
    {
      backups
    }

    method DeleteBackup(version: string, timestamp: string) returns (ok: bool)
      requires Valid()
      modifies this, fs
      ensures Valid()
      ensures Outcome(ok, Snapshot()) == Delete(old(Snapshot()), version, timestamp)
    {
      var i := 0;
      while i < |backups|
        invariant 0 <= i <= |backups|
        invariant forall j :: 0 <= j < i ==> !HasKey(backups[j], version, timestamp)
        invariant backups == old(backups) && fs.View() == old(fs.View()) && Valid()
      {
        var backup := backups[i];
        if backup.version == version && backup.timestamp == timestamp {
          assert FirstMatch(backups, version, timestamp) == Some(i);
          if Exists(fs.View(), backup.path) {
            fs.Rmtree(backup.path);
          }
          backups := RemoveFirst(backups, backup);
          SaveBackupInfo();
          return true;
        }
        i := i + 1;
      }
      return false;
    }

    method CreateBackup(version: string, description: string, now: string, createdAt: string)
      returns (ok: bool)
      requires Valid()
      modifies this, fs
      ensures Valid() && ok
      ensures Snapshot() == Create(old(Snapshot()), version, description, now, createdAt)
    {
      var timestamp := now;
      var backupPath := BackupDir(version, timestamp);
      fs.Mkdir(backupPath);
      var filesToBackup := Manifest;
      CopyInto(filesToBackup, backupPath);
      var info := Record(version, timestamp, description, backupPath, filesToBackup, createdAt);
      backups := backups + [info];
      SaveBackupInfo();
      CleanupOldBackups(KeepAfterCreate);
      ok := true;
    }

    /** The copy loop of `create_backup`: each manifest entry that exists is copied to `<dir>/<base name>`. */
    method CopyInto(files: seq<Path>, dir: Path)
      modifies fs
      ensures fs.View() == SaveAll(old(fs.View()), files, dir)
    {
      ghost var d0 := fs.View();
      var i := 0;
      while i < |files|
        invariant 0 <= i <= |files|
        invariant SaveAll(fs.View(), files[i..], dir) == SaveAll(d0, files, dir)
      {
        var file := files[i];
        assert files[i..][1..] == files[i + 1..];
        if file in fs.files {
          var dst := Join(dir, Base(file));
          fs.Mkdir(Parent(dst));
          fs.Copy2(file, dst);
        }
        i := i + 1;
      }
    }

    /** The copy loop of `restore_backup`: each recorded file gets its parent directory and, when the backup holds it, its saved content. */
    method CopyBack(files: seq<Path>, dir: Path)
      modifies fs
      ensures fs.View() == RestoreAll(old(fs.View()), files, dir)
    {
      ghost var d0 := fs.View();
      var i := 0;
      while i < |files|
        invariant 0 <= i <= |files|
        invariant RestoreAll(fs.View(), files[i..], dir) == RestoreAll(d0, files, dir)
      {
        var file := files[i];
        assert files[i..][1..] == files[i + 1..];
        var src := Join(dir, Base(file));
        fs.Mkdir(Parent(file));
        if src in fs.files {
          fs.Copy2(src, file);
        }
        i := i + 1;
      }
    }

    method CleanupOldBackups(keep: int)
      requires Valid()
      modifies this, fs
      ensures Valid()
      ensures Snapshot() == Trim(old(Snapshot()), keep)
    {
      if |backups| > keep {
        var sortedBackups := NewestFirst(backups);
        var excess := sortedBackups[SliceStart(|sortedBackups|, keep)..];
        assert excess == Evicted(backups, keep);
        Evict(excess);
        SaveBackupInfo();
      }
    }

    /** The eviction loop: each record of `excess` loses its directory, if present, and its ledger entry. */
    method Evict(excess: seq<Record>)
      requires multiset(excess) <= multiset(backups)
      modifies this`backups, fs
      ensures backups == RemoveEach(old(backups), excess)
      ensures fs.View() == DropDirs(old(fs.View()), excess)
    {
      ghost var s0, d0 := backups, fs.View();
      var i := 0;
      while i < |excess|
        invariant 0 <= i <= |excess|
        invariant multiset(excess[i..]) <= multiset(backups)
        invariant RemoveEach(backups, excess[i..]) == RemoveEach(s0, excess)
        invariant DropDirs(fs.View(), excess[i..]) == DropDirs(d0, excess)
      {
        EvictStep(backups, fs.View(), excess, i, s0, d0);
        EvictOne(excess[i]);
        i := i + 1;
      }
    }

    /** One turn of the eviction loop: remove the record's directory if present, then the record. */
    method EvictOne(backup: Record)
      requires backup in backups
      modifies this`backups, fs
      ensures backups == RemoveFirst(old(backups), backup)
      ensures fs.View() == if Exists(old(fs.View()), backup.path) then WithoutTree(old(fs.View()), backup.path) else old(fs.View())
    {
      if Exists(fs.View(), backup.path) {
        fs.Rmtree(backup.path);
      }
      backups := RemoveFirst(backups, backup);
    }

    method RestoreBackup(version: Option<string>, timestamp: Option<string>, now: string, createdAt: string)
      returns (ok: bool)
      requires Valid()
      modifies this, fs
      ensures Valid()
      ensures Outcome(ok, Snapshot()) == Restore(old(Snapshot()), version, timestamp, now, createdAt)
    {
      if backups == [] {
        return false;
      }
      var target := FindTarget(version, timestamp);
      if target.None? {
        return false;
      }
      var backup := target.value;
      ghost var st0 := Snapshot();
      var autoOk := CreateBackup(AutoVersion, AutoDescription, now, createdAt);
      assert Snapshot() == Create(st0, AutoVersion, AutoDescription, now, createdAt);
      CopyBack(backup.files, backup.path);
      ok := true;
    }

    /** The selection step of `restore_backup`: the first exact match, or the head of the newest-first order. */
    method FindTarget(version: Option<string>, timestamp: Option<string>) returns (target: Option<Record>)
      requires backups != []
      ensures target == Target(backups, version, timestamp)
    {
      if Truthy(version) && Truthy(timestamp) {
        var matchingBackups := Matching(backups, version.value, timestamp.value);
        if matchingBackups == [] {
          return None;
        }
        return Some(matchingBackups[0]);
      }
      return Some(NewestFirst(backups)[0]);
    }
  }
}

=== FILE: disks.dfy ===
/**
 * The filesystem as the backup code sees it: a set of directories and a map
 * from file paths to their contents. `Disk` is a value (used by the
 * specification functions); `FileSystem` is the one mutable filesystem that
 * `mkdir`, `shutil.copy2` and `shutil.rmtree` change in place.
 */
module Disks {
  import opened Paths

  type Content = string

  datatype Disk = Disk(dirs: set<Path>, files: map<Path, Content>)

  /** `Path(p).exists()`. */
  predicate Exists(d: Disk, p: Path)
  {
    p in d.dirs || p in d.files
  }

  /** `Path(p).mkdir(exist_ok=True)`. */
  function WithDir(d: Disk, p: Path): Disk
  {
    d.(dirs := d.dirs + {p})
  }

  /** `shutil.copy2(src, dst)`: the destination now holds the source's content. */
  function WithCopy(d: Disk, src: Path, dst: Path): Disk
    requires src in d.files
  {
    d.(files := d.files[dst := d.files[src]])
  }

  /** Writing `content` to the file at `p`. */
  function WithFile(d: Disk, p: Path, content: Content): Disk
  {
    d.(files := d.files[p := content])
  }

  /** `shutil.rmtree(root)`: the directory and everything below it are gone. */
  function WithoutTree(d: Disk, root: Path): (r: Disk)
    ensures !Exists(r, root)
    ensures forall p :: Exists(r, p) <==> Exists(d, p) && !Within(p, root)
    ensures forall p :: p in r.files ==> p in d.files && r.files[p] == d.files[p]
  {
    Disk(set p | p in d.dirs && !Within(p, root),
         map p | p in d.files && !Within(p, root) :: d.files[p])
  }

  class FileSystem {
    var dirs: set<Path>
    var files: map<Path, Content>

    function View(): Disk
      reads this
    {
      Disk(dirs, files)
    }

    constructor (initial: Disk)
      ensures View() == initial
    {
      dirs := initial.dirs;
      files := initial.files;
    }

    method Mkdir(p: Path)
      modifies this
      ensures View() == WithDir(old(View()), p)
    {
      dirs := dirs + {p};
    }

    method Copy2(src: Path, dst: Path)
      requires src in files
      modifies this
      ensures View() == WithCopy(old(View()), src, dst)
    {
      files := files[dst := files[src]];
    }

    method Write(p: Path, content: Content)
      modifies this
      ensures View() == WithFile(old(View()), p, content)
    {
      files := files[p := content];
    }

    method Rmtree(root: Path)
      modifies this
      ensures View() == WithoutTree(old(View()), root)
    {
      var d := WithoutTree(View(), root);
      dirs, files := d.dirs, d.files;
    }
  }
}

=== FILE: ledger.dfy ===
/**
 * The backup ledger as a sequence of records, and the list operations the
 * backup manager applies to it: the newest-first stable sort, `list.remove`,
 * and the retention trim that evicts everything past `keep_count`.
 */
module Ledger {
  import opened Wrappers
  import opened Strings
  import opened Paths

  /** One entry of the ledger's `backups` array. */
  datatype Record = Record(
    version: string,
    timestamp: string,
    description: string,
    path: Path,
    files: seq<Path>,
    createdAt: string)

  /** `x` was taken strictly before `y`, comparing timestamps as Python strings. */
  predicate Older(x: Record, y: Record)
  {
    LexLess(x.timestamp, y.timestamp)
  }

  lemma OlderAsymmetric(x: Record, y: Record)
    requires Older(x, y)
    ensures !Older(y, x) && x.timestamp != y.timestamp
  {
    LexLessIrreflexive(x.timestamp);
    if Older(y, x) {
      LexLessTransitive(x.timestamp, y.timestamp, x.timestamp);
    }
  }

  /** Every record occurs once in the sequence. */
  ghost predicate Distinct(s: seq<Record>)
  {
    forall x | x in s :: multiset(s)[x] == 1
  }

  /*
   * sorted(backups, key=lambda x: x["timestamp"], reverse=True)
   */

  /** Places `x` in front of the first record of `t` that is not strictly newer. */
  function InsertByStamp(x: Record, t: seq<Record>): (r: seq<Record>)
    ensures multiset(r) == multiset(t) + multiset{x}
    decreases |t|
  {
    if t == [] then [x]
    else if Older(x, t[0]) then
      assert t == [t[0]] + t[1..];
      [t[0]] + InsertByStamp(x, t[1..])
    else [x] + t
  }

  /** Python's stable sort on the timestamp, newest first. */
  function NewestFirst(s: seq<Record>): (r: seq<Record>)
    ensures multiset(r) == multiset(s)
    ensures |r| == |s|
    decreases |s|
  {
    if s == [] then []
    else
      assert s == [s[0]] + s[1..];
      InsertByStamp(s[0], NewestFirst(s[1..]))
  }

  /** No record is strictly older than one that follows it. */
  ghost predicate IsNewestFirst(t: seq<Record>)
  {
    forall i, j :: 0 <= i < j < |t| ==> !Older(t[i], t[j])
  }

  /** Prepending a record not older than anything in a newest-first sequence keeps it newest first. */
  lemma ConsOrdered(h: Record, u: seq<Record>)
    requires IsNewestFirst(u) && forall y | y in u :: !Older(h, y)
    ensures IsNewestFirst([h] + u)
  {
    var r := [h] + u;
    forall i, j | 0 <= i < j < |r|
      ensures !Older(r[i], r[j])
    {
      if i == 0 {
        assert r[j] == u[j - 1];
      } else {
        assert r[i] == u[i - 1] && r[j] == u[j - 1];
      }
    }
  }

  /** The head of a newest-first sequence is not older than any of its records. */
  lemma HeadNotOlder(t: seq<Record>)
    requires t != [] && IsNewestFirst(t)
    ensures forall y | y in t :: !Older(t[0], y)
  {
    LexLessIrreflexive(t[0].timestamp);
    forall y | y in t
      ensures !Older(t[0], y)
    {
      var j :| 0 <= j < |t| && t[j] == y;
    }
  }

  lemma {:induction false} InsertByStampOrdered(x: Record, t: seq<Record>)
    requires IsNewestFirst(t)
    ensures IsNewestFirst(InsertByStamp(x, t))
    decreases |t|
  {
    if t == [] {
      assert InsertByStamp(x, t) == [x];
    } else if Older(x, t[0]) {
      var rest := InsertByStamp(x, t[1..]);
      assert InsertByStamp(x, t) == [t[0]] + rest;
      assert IsNewestFirst(t[1..]) by {
        forall i, j | 0 <= i < j < |t[1..]|
          ensures !Older(t[1..][i], t[1..][j])
        {
          assert t[1..][i] == t[i + 1] && t[1..][j] == t[j + 1];
        }
      }
      InsertByStampOrdered(x, t[1..]);
      HeadNotOlder(t);
      OlderAsymmetric(x, t[0]);
      forall y | y in rest
        ensures !Older(t[0], y)
      {
        assert y in multiset(rest);
        assert y == x || y in multiset(t[1..]);
      }
      ConsOrdered(t[0], rest);
    } else {
      assert InsertByStamp(x, t) == [x] + t;
      HeadNotOlder(t);
      forall y | y in t
        ensures !Older(x, y)
      {
        NotLessTransitive(x.timestamp, t[0].timestamp, y.timestamp);
      }
      ConsOrdered(x, t);
    }
  }

  lemma {:induction false} NewestFirstOrdered(s: seq<Record>)
    ensures IsNewestFirst(NewestFirst(s))
    decreases |s|
  {
    if s != [] {
      NewestFirstOrdered(s[1..]);
      InsertByStampOrdered(s[0], NewestFirst(s[1..]));
    }
  }

  /** The records of `s` that carry timestamp `ts`, in order. */
  function WithStamp(s: seq<Record>, ts: string): (r: seq<Record>)
    ensures forall y | y in r :: y in s && y.timestamp == ts
    decreases |s|
  {
    if s == [] then []
    else (if s[0].timestamp == ts then [s[0]] else []) + WithStamp(s[1..], ts)
  }

  lemma {:induction false} WithStampAppend(a: seq<Record>, b: seq<Record>, ts: string)
    ensures WithStamp(a + b, ts) == WithStamp(a, ts) + WithStamp(b, ts)
    decreases |a|
  {
    if a != [] {
      assert (a + b)[1..] == a[1..] + b;
      WithStampAppend(a[1..], b, ts);
    } else {
      assert a + b == b;
    }
  }

  /** Selecting a timestamp from a sequence with a known head. */
  lemma WithStampCons(y: Record, u: seq<Record>, ts: string)
    ensures WithStamp([y] + u, ts) == (if y.timestamp == ts then [y] else []) + WithStamp(u, ts)
  {
    assert ([y] + u)[1..] == u;
  }

  /** Two sequences of which one is empty can trade places in front of a third. */
  lemma SwapFront(a: seq<Record>, b: seq<Record>, c: seq<Record>)
    requires a == [] || b == []
    ensures a + (b + c) == b + (a + c)
  {
  }

  lemma {:induction false} InsertByStampStable(x: Record, t: seq<Record>, ts: string)
    ensures WithStamp(InsertByStamp(x, t), ts)
         == (if x.timestamp == ts then [x] else []) + WithStamp(t, ts)
    decreases |t|
  {
    var wx := if x.timestamp == ts then [x] else [];
    if t == [] {
      WithStampCons(x, [], ts);
      assert [x] + [] == [x];
    } else if Older(x, t[0]) {
      var rest := InsertByStamp(x, t[1..]);
      var w0 := if t[0].timestamp == ts then [t[0]] else [];
      assert InsertByStamp(x, t) == [t[0]] + rest;
      InsertByStampStable(x, t[1..], ts);
      WithStampCons(t[0], rest, ts);
      OlderAsymmetric(x, t[0]);
      SwapFront(w0, wx, WithStamp(t[1..], ts));
    } else {
      assert InsertByStamp(x, t) == [x] + t;
      WithStampCons(x, t, ts);
    }
  }

  /**
   * The sort is stable: among records with one timestamp the sorted order is
   * the ledger order.
   */
  lemma {:induction false} NewestFirstStable(s: seq<Record>, ts: string)
    ensures WithStamp(NewestFirst(s), ts) == WithStamp(s, ts)
    decreases |s|
  {
    if s != [] {
      NewestFirstStable(s[1..], ts);
      InsertByStampStable(s[0], NewestFirst(s[1..]), ts);
    }
  }

  /*
   * backups.remove(backup), and the retention trim built on it
   */

  /** `list.remove(x)`: drops the first element equal to `x`. */
  function RemoveFirst(s: seq<Record>, x: Record): (r: seq<Record>)
    requires x in s
    ensures multiset(r) + multiset{x} == multiset(s)
    ensures |r| == |s| - 1
    decreases |s|
  {
    assert s == [s[0]] + s[1..];
    if s[0] == x then s[1..] else [s[0]] + RemoveFirst(s[1..], x)
  }

  /** When `i` is the first position holding `x`, the removal cuts out exactly position `i`. */
  lemma {:induction false} RemoveFirstAt(s: seq<Record>, x: Record, i: nat)
    requires i < |s| && s[i] == x && x !in s[..i]
    ensures RemoveFirst(s, x) == s[..i] + s[i + 1..]
    decreases i
  {
    if i > 0 {
      assert s[0] in s[..i];
      assert s[1..][..i - 1] == s[1..i];
      RemoveFirstAt(s[1..], x, i - 1);
      assert s[..i] + s[i + 1..] == [s[0]] + (s[1..][..i - 1] + s[1..][i..]);
    }
  }

  /** Removes each record of `ev`, in order, as the eviction loop does. */
  function RemoveEach(s: seq<Record>, ev: seq<Record>): (r: seq<Record>)
    requires multiset(ev) <= multiset(s)
    ensures multiset(r) + multiset(ev) == multiset(s)
    ensures |r| == |s| - |ev|
    decreases |ev|
  {
    if ev == [] then s
    else
      RemainderFits(s, ev);
      var r := RemoveEach(RemoveFirst(s, ev[0]), ev[1..]);
      assert ev == [ev[0]] + ev[1..];
      assert multiset(ev) == multiset{ev[0]} + multiset(ev[1..]);
      r
  }

  /** After removing the first record of `ev`, the rest of `ev` is still present. */
  lemma RemainderFits(s: seq<Record>, ev: seq<Record>)
    requires ev != [] && multiset(ev) <= multiset(s)
    ensures ev[0] in s
    ensures multiset(ev[1..]) <= multiset(RemoveFirst(s, ev[0]))
  {
    assert ev == [ev[0]] + ev[1..];
    assert multiset(ev) == multiset{ev[0]} + multiset(ev[1..]);
    assert ev[0] in multiset(s);
    var rest := RemoveFirst(s, ev[0]);
    forall y
      ensures multiset(ev[1..])[y] <= multiset(rest)[y]
    {
      assert multiset(ev)[y] <= multiset(s)[y];
      assert multiset(rest)[y] + multiset{ev[0]}[y] == multiset(s)[y];
    }
  }

  /** Where Python's slice `t[keep:]` starts in a list of length `n` (negative `keep` counts from the end). */
  function SliceStart(n: nat, keep: int): (c: nat)
    ensures c <= n
    ensures 0 <= keep <= n ==> c == keep
    ensures keep < 0 && n + keep >= 0 ==> c == n + keep
  {
    if keep >= 0 then (if keep <= n then keep else n)
    else if n + keep >= 0 then n + keep else 0
  }

  /** `sorted_backups[keep_count:]`: the records the trim evicts. */
  function Evicted(s: seq<Record>, keep: int): (ev: seq<Record>)
    ensures multiset(ev) <= multiset(s)
    ensures |ev| == |s| - SliceStart(|s|, keep)
  {
    var t := NewestFirst(s);
    var c := SliceStart(|t|, keep);
    SplitAt(t, c);
    t[c..]
  }

  /** The ledger after `_cleanup_old_backups(keep)`. */
  function Trimmed(s: seq<Record>, keep: int): seq<Record>
  {
    if |s| > keep then RemoveEach(s, Evicted(s, keep)) else s
  }

  /** Removing the tail `t[c..]` of a permutation `t` of `s` leaves the multiset of its head. */
  lemma HeadRemains(s: seq<Record>, t: seq<Record>, c: nat, kept: seq<Record>)
    requires multiset(t) == multiset(s) && c <= |t|
    requires multiset(kept) + multiset(t[c..]) == multiset(s)
    ensures multiset(kept) == multiset(t[..c])
  {
    assert t == t[..c] + t[c..];
    forall y
      ensures multiset(kept)[y] == multiset(t[..c])[y]
    {
      assert (multiset(kept) + multiset(t[c..]))[y] == (multiset(t[..c]) + multiset(t[c..]))[y];
    }
  }

  /** A sequence is its head followed by its tail at any cut. */
  lemma SplitAt(t: seq<Record>, c: nat)
    requires c <= |t|
    ensures t == t[..c] + t[c..]
  {
  }

  /** A trim that has work to do keeps the leading records of the newest-first order. */
  lemma TrimmedSurvivors(s: seq<Record>, keep: int)
    requires |s| > keep
    ensures multiset(Trimmed(s, keep)) == multiset(NewestFirst(s)[..SliceStart(|s|, keep)])
    ensures |Trimmed(s, keep)| == SliceStart(|s|, keep)
  {
    var t := NewestFirst(s);
    var c := SliceStart(|s|, keep);
    HeadRemains(s, t, c, Trimmed(s, keep));
  }

  /**
   * A trim that has work to do leaves exactly as many records as the slice
   * keeps, and no survivor is older than any evicted record.
   */
  lemma TrimKeepsNewest(s: seq<Record>, keep: int)
    requires |s| > keep
    ensures keep >= 0 ==> |Trimmed(s, keep)| == keep
    ensures keep < 0 ==> |Trimmed(s, keep)| == if |s| + keep > 0 then |s| + keep else 0
    ensures forall r, e | r in Trimmed(s, keep) && e in Evicted(s, keep) :: !Older(r, e)
  {
    var t := NewestFirst(s);
    var c := SliceStart(|s|, keep);
    var kept := Trimmed(s, keep);
    TrimmedSurvivors(s, keep);
    NewestFirstOrdered(s);
    forall r, e | r in kept && e in Evicted(s, keep)
      ensures !Older(r, e)
    {
      assert r in multiset(t[..c]);
      FrontNotOlder(t, c, r, e);
    }
  }

  /** In a newest-first sequence nothing before a cut is older than anything after it. */
  lemma FrontNotOlder(t: seq<Record>, c: nat, r: Record, e: Record)
    requires IsNewestFirst(t) && c <= |t| && r in t[..c] && e in t[c..]
    ensures !Older(r, e)
  {
    var i :| 0 <= i < c && t[..c][i] == r;
    var j :| 0 <= j < |t| - c && t[c..][j] == e;
    assert t[i] == r && t[c + j] == e;
  }

  /** The number of records a trim leaves. */
  lemma TrimmedLength(s: seq<Record>, keep: int)
    ensures keep >= 0 ==> |Trimmed(s, keep)| == if |s| > keep then keep else |s|
    ensures keep < 0 ==> |Trimmed(s, keep)| == if |s| + keep > 0 then |s| + keep else 0
  {
    if |s| > keep {
      TrimKeepsNewest(s, keep);
    }
  }

  /** A second trim with the same non-negative count changes nothing. */
  lemma TrimIdempotent(s: seq<Record>, keep: int)
    requires keep >= 0
    ensures Trimmed(Trimmed(s, keep), keep) == Trimmed(s, keep)
  {
    TrimmedLength(s, keep);
  }

  /**
   * With a negative count, as `clean --keep` accepts, the slice rule evicts
   * |keep| records on every call, so a second trim of a non-empty result
   * takes more records away.
   */
  lemma TrimNegativeShrinks(s: seq<Record>, keep: int)
    requires keep < 0 && Trimmed(s, keep) != []
    ensures |Trimmed(Trimmed(s, keep), keep)| < |Trimmed(s, keep)|
  {
    TrimmedLength(s, keep);
    TrimmedLength(Trimmed(s, keep), keep);
  }

  /*
   * Order of the survivors
   */

  /** The set of records occurring in `ev`. */
  function Members(ev: seq<Record>): (r: set<Record>)
    ensures forall y :: y in r <==> y in ev
    decreases |ev|
  {
    if ev == [] then {} else {ev[0]} + Members(ev[1..])
  }

  /** The records of `s` not in `gone`, in order. */
  function Without(s: seq<Record>, gone: set<Record>): (r: seq<Record>)
    ensures forall y | y in r :: y in s && y !in gone
    decreases |s|
  {
    if s == [] then []
    else (if s[0] in gone then [] else [s[0]]) + Without(s[1..], gone)
  }

  lemma {:induction false} WithoutAppend(a: seq<Record>, b: seq<Record>, gone: set<Record>)
    ensures Without(a + b, gone) == Without(a, gone) + Without(b, gone)
    decreases |a|
  {
    if a == [] {
      assert a + b == b;
    } else {
      assert (a + b)[1..] == a[1..] + b;
      WithoutAppend(a[1..], b, gone);
    }
  }

  lemma {:induction false} WithoutKeepsAll(s: seq<Record>, gone: set<Record>)
    requires forall y | y in s :: y !in gone
    ensures Without(s, gone) == s
    decreases |s|
  {
    if s != [] {
      WithoutKeepsAll(s[1..], gone);
    }
  }

  lemma {:induction false} WithoutDropsAll(s: seq<Record>, gone: set<Record>)
    requires forall y | y in s :: y in gone
    ensures Without(s, gone) == []
    decreases |s|
  {
    if s != [] {
      WithoutDropsAll(s[1..], gone);
    }
  }

  lemma {:induction false} WithoutWithStamp(s: seq<Record>, gone: set<Record>, ts: string)
    ensures WithStamp(Without(s, gone), ts) == Without(WithStamp(s, ts), gone)
    decreases |s|
  {
    if s != [] {
      var head := if s[0] in gone then [] else [s[0]];
      WithStampAppend(head, Without(s[1..], gone), ts);
      WithoutAppend(if s[0].timestamp == ts then [s[0]] else [], WithStamp(s[1..], ts), gone);
      WithoutWithStamp(s[1..], gone, ts);
    }
  }

  lemma {:induction false} WithoutTwice(s: seq<Record>, a: set<Record>, b: set<Record>)
    ensures Without(Without(s, a), b) == Without(s, a + b)
    decreases |s|
  {
    if s != [] {
      var head := if s[0] in a then [] else [s[0]];
      WithoutAppend(head, Without(s[1..], a), b);
      WithoutTwice(s[1..], a, b);
    }
  }

  lemma {:induction false} WithoutSubMultiset(s: seq<Record>, gone: set<Record>)
    ensures multiset(Without(s, gone)) <= multiset(s)
    decreases |s|
  {
    if s != [] {
      assert s == [s[0]] + s[1..];
      WithoutSubMultiset(s[1..], gone);
    }
  }

  lemma DistinctSub(s: seq<Record>, u: seq<Record>)
    requires Distinct(s) && multiset(u) <= multiset(s)
    ensures Distinct(u)
  {
    forall y | y in u
      ensures multiset(u)[y] == 1
    {
      assert y in multiset(u);
    }
  }

  lemma {:induction false} RemoveFirstDistinct(t: seq<Record>, x: Record)
    requires Distinct(t) && x in t
    ensures RemoveFirst(t, x) == Without(t, {x})
    decreases |t|
  {
    assert t == [t[0]] + t[1..];
    if t[0] == x {
      assert multiset(t[1..])[x] == 0;
      WithoutKeepsAll(t[1..], {x});
    } else {
      DistinctSub(t, t[1..]);
      RemoveFirstDistinct(t[1..], x);
    }
  }

  lemma {:induction false} RemoveEachDistinct(s: seq<Record>, ev: seq<Record>)
    requires Distinct(s) && multiset(ev) <= multiset(s)
    ensures RemoveEach(s, ev) == Without(s, Members(ev))
    decreases |ev|
  {
    if ev == [] {
      WithoutKeepsAll(s, {});
    } else {
      var x, tail := ev[0], ev[1..];
      assert x in s by {
        RemainderFits(s, ev);
      }
      var rest := RemoveFirst(s, x);
      var later := Members(tail);
      assert rest == Without(s, {x}) && Distinct(rest) && multiset(tail) <= multiset(rest) by {
        RemainderFits(s, ev);
        RemoveFirstDistinct(s, x);
        WithoutSubMultiset(s, {x});
        DistinctSub(s, rest);
      }
      assert RemoveEach(s, ev) == RemoveEach(rest, tail) by {
        RemainderFits(s, ev);
      }
      RemoveEachDistinct(rest, tail);
      WithoutTwice(s, {x}, later);
    }
  }

  /** When every record occurs once, no kept record of the newest-first order is also evicted. */
  lemma KeptNotEvicted(s: seq<Record>, keep: int)
    requires Distinct(s)
    ensures forall y | y in NewestFirst(s)[..SliceStart(|s|, keep)] :: y !in Evicted(s, keep)
  {
    var t := NewestFirst(s);
    var c := SliceStart(|s|, keep);
    var front, back := t[..c], t[c..];
    SplitAt(t, c);
    DistinctSub(s, t);
    forall y | y in front
      ensures y !in back
    {
      assert multiset(t)[y] == multiset(front)[y] + multiset(back)[y];
    }
  }

  /**
   * When every record occurs once, the survivors are the ledger with the
   * evicted records filtered out, in their original relative order.
   */
  lemma TrimmedLedgerOrder(s: seq<Record>, keep: int)
    requires Distinct(s) && |s| > keep
    ensures Trimmed(s, keep) == Without(s, Members(Evicted(s, keep)))
  {
    RemoveEachDistinct(s, Evicted(s, keep));
  }

  /**
   * When every record occurs once, the survivors among the records sharing
   * one timestamp are the earliest of them in ledger order.
   */
  lemma TrimmedTies(s: seq<Record>, keep: int, ts: string)
    requires Distinct(s) && |s| > keep
    ensures WithStamp(Trimmed(s, keep), ts) <= WithStamp(s, ts)
  {
    var t := NewestFirst(s);
    var c := SliceStart(|s|, keep);
    var front, back := t[..c], t[c..];
    var gone := Members(Evicted(s, keep));
    var a, b := WithStamp(front, ts), WithStamp(back, ts);
    assert WithStamp(s, ts) == a + b by {
      NewestFirstStable(s, ts);
      SplitAt(t, c);
      WithStampAppend(front, back, ts);
    }
    assert WithStamp(Trimmed(s, keep), ts) == Without(a + b, gone) by {
      TrimmedLedgerOrder(s, keep);
      WithoutWithStamp(s, gone, ts);
    }
    assert Without(a + b, gone) == a by {
      KeptNotEvicted(s, keep);
      WithoutAppend(a, b, gone);
      WithoutKeepsAll(a, gone);
      WithoutDropsAll(b, gone);
    }
  }

  /*
   * Selecting a record
   */

  /** `sorted(backups, key=timestamp, reverse=True)[0]`: the record a restore without a full key uses. */
  function Latest(s: seq<Record>): (r: Record)
    requires s != []
    ensures r in s
  {
    var t := NewestFirst(s);
    assert t[0] in multiset(s);
    t[0]
  }

  lemma {:induction false} FirstWithStamp(s: seq<Record>, ts: string) returns (i: nat)
    requires WithStamp(s, ts) != []
    ensures i < |s| && s[i] == WithStamp(s, ts)[0]
    ensures forall j :: 0 <= j < i ==> s[j].timestamp != ts
    decreases |s|
  {
    if s[0].timestamp == ts {
      i := 0;
    } else {
      assert WithStamp(s, ts) == WithStamp(s[1..], ts);
      var k := FirstWithStamp(s[1..], ts);
      i := k + 1;
      assert s[i] == s[1..][k];
      forall j | 0 <= j < i
        ensures s[j].timestamp != ts
      {
        if j > 0 {
          assert s[j] == s[1..][j - 1];
        }
      }
    }
  }

  /**
   * The latest record is at least as new as every record, and it is the
   * first record in ledger order with that timestamp: every record before it
   * is strictly older.
   */
  lemma LatestIsNewest(s: seq<Record>)
    requires s != []
    ensures forall y | y in s :: !Older(Latest(s), y)
    ensures exists i :: 0 <= i < |s| && s[i] == Latest(s)
                        && forall j :: 0 <= j < i ==> Older(s[j], s[i])
  {
    var t := NewestFirst(s);
    NewestFirstOrdered(s);
    forall y | y in s
      ensures !Older(t[0], y)
    {
      assert y in multiset(t);
      var k :| 0 <= k < |t| && t[k] == y;
      if k == 0 {
        LexLessIrreflexive(y.timestamp);
      }
    }
    var m := t[0].timestamp;
    assert WithStamp(t, m)[0] == t[0];
    NewestFirstStable(s, m);
    var i := FirstWithStamp(s, m);
    forall j | 0 <= j < i
      ensures Older(s[j], s[i])
    {
      assert s[j] in s;
      LexLessTotal(s[j].timestamp, m);
    }
  }

  /** The record answers to the compound key (version, timestamp). */
  predicate HasKey(r: Record, version: string, timestamp: string)
  {
    r.version == version && r.timestamp == timestamp
  }

  /** `[b for b in backups if b["version"] == version and b["timestamp"] == timestamp]`. */
  function Matching(s: seq<Record>, version: string, timestamp: string): (r: seq<Record>)
    ensures forall y | y in r :: y in s && HasKey(y, version, timestamp)
    ensures r == [] <==> forall y | y in s :: !HasKey(y, version, timestamp)
    decreases |s|
  {
    if s == [] then []
    else
      assert s == [s[0]] + s[1..];
      (if HasKey(s[0], version, timestamp) then [s[0]] else []) + Matching(s[1..], version, timestamp)
  }

  /** The position of the first record with the key, as the loop in `delete_backup` finds it. */
  function FirstMatch(s: seq<Record>, version: string, timestamp: string): (r: Option<nat>)
    ensures r.Some? ==> r.value < |s| && HasKey(s[r.value], version, timestamp)
                        && forall j :: 0 <= j < r.value ==> !HasKey(s[j], version, timestamp)
    ensures r.None? ==> forall j :: 0 <= j < |s| ==> !HasKey(s[j], version, timestamp)
    decreases |s|
  {
    if s == [] then None
    else if HasKey(s[0], version, timestamp) then Some(0)
    else match FirstMatch(s[1..], version, timestamp)
      case None => None
      case Some(i) => Some(i + 1)
  }

  /** Restore and delete name the same record by a key: the first one in ledger order. */
  lemma {:induction false} MatchingHead(s: seq<Record>, version: string, timestamp: string)
    requires Matching(s, version, timestamp) != []
    ensures FirstMatch(s, version, timestamp).Some?
    ensures Matching(s, version, timestamp)[0] == s[FirstMatch(s, version, timestamp).value]
    decreases |s|
  {
    if !HasKey(s[0], version, timestamp) {
      MatchingHead(s[1..], version, timestamp);
    }
  }
}

=== FILE: manage.dfy ===
/**
 * The command-line layer in `manage.py`: the version validator, the project
 * status report, and the `backup`, `delete` and `restore` commands, each
 * driving the one `BackupManager`.
 */
module Manage {
  import opened Wrappers
  import opened Strings
  import opened Paths
  import opened Disks
  import opened Ledger
  import opened Snapshots
  import opened Backup

  // ---------------------------------------------------------------------
  // validate_version
  // ---------------------------------------------------------------------

  /** The message of the `BadParameter` the validator raises. */
  const VersionError: string := "版本号必须是数字和点组成，如 1.0.0"

  /** `s.replace(".", "")`. */
  function WithoutDots(s: string): (r: string)
    ensures forall c :: c in r <==> c in s && c != '.'
    decreases |s|
  {
    if s == [] then []
    else
      assert s == [s[0]] + s[1..];
      (if s[0] == '.' then [] else [s[0]]) + WithoutDots(s[1..])
  }

  /** `str.isdigit()` over the ASCII digits: non-empty and all digits. */
  predicate IsDigits(s: string)
  {
    s != [] && forall c | c in s :: '0' <= c <= '9'
  }

  /** `validate_version`: a falsy value passes; anything else must be digits and dots. */
  function ValidateVersion(value: Option<string>): (r: Result<Option<string>, string>)
    ensures r.Success? ==> r.value == value
    ensures r.Failure? ==> r.error == VersionError
  {
    if Truthy(value) && !IsDigits(WithoutDots(value.value)) then Failure(VersionError)
    else Success(value)
  }

  /**
   * A version is accepted exactly when it is missing or empty, or made only
   * of digits and dots with at least one digit.
   */
  lemma ValidateVersionAccepts(value: Option<string>)
    ensures ValidateVersion(value).Success? <==>
      value.None? || value.value == ""
      || ((forall c | c in value.value :: c == '.' || '0' <= c <= '9')
          && exists c | c in value.value :: '0' <= c <= '9')
  {
    if Truthy(value) {
      var r := WithoutDots(value.value);
      if r != [] {
        assert r[0] in r;
      }
    }
  }

  lemma ValidateVersionExamples()
    ensures ValidateVersion(Some("1.0.0")) == Success(Some("1.0.0"))
    ensures ValidateVersion(Some("...")) == Failure(VersionError)
    ensures ValidateVersion(Some("1.a")) == Failure(VersionError)
    ensures ValidateVersion(Some("")) == Success(Some(""))
    ensures ValidateVersion(None) == Success(None)
  {
    assert WithoutDots("1.0.0") == "100";
    assert WithoutDots("...") == "";
    assert 'a' in WithoutDots("1.a");
  }

  // ---------------------------------------------------------------------
  // get_project_files / check_project_status
  // ---------------------------------------------------------------------

  /** `get_project_files()`. */
  const ProjectFiles: seq<Path> := [
    "main.py",
    "backup.py",
    "manage.py",
    "templates/index.html",
    "CHANGELOG.md",
    "locales/en_US.yml",
    "locales/zh_CN.yml"
  ]

  /** `required_dirs` in `check_project_status`. */
  const RequiredDirs: seq<Path> := ["templates", "locales", "downloads", "backups"]

  /** The dictionary `check_project_status` returns. */
  datatype Status = Status(
    files: map<Path, bool>,
    directories: map<Path, bool>,
    totalFiles: int,
    missingFiles: int)

  /** How many entries of `m` are not existing files. */
  function Missing(m: seq<Path>, d: Disk): (n: nat)
    ensures n <= |m|
    ensures n == 0 <==> forall f | f in m :: f in d.files
    decreases |m|
  {
    if m == [] then 0
    else
      assert m == [m[0]] + m[1..];
      (if m[0] in d.files then 0 else 1) + Missing(m[1..], d)
  }

  method CheckProjectStatus(fs: FileSystem) returns (status: Status)
    ensures forall n :: n in status.directories <==> n in RequiredDirs
    ensures forall n | n in status.directories :: status.directories[n] == (n in fs.dirs)
    ensures forall f :: f in status.files <==> f in ProjectFiles
    ensures forall f | f in status.files :: status.files[f] == (f in fs.files)
    ensures status.totalFiles == |ProjectFiles| == 7
    ensures status.missingFiles == Missing(ProjectFiles, fs.View())
    ensures 0 <= status.missingFiles <= status.totalFiles
    ensures status.missingFiles == 0 <==> forall f | f in ProjectFiles :: f in fs.files
  {
    var directories := CheckDirectories(fs, RequiredDirs);
    var files, total, missing := CheckFiles(fs, ProjectFiles);
    status := Status(files, directories, total, missing);
  }

  /** The directory loop of `check_project_status`. */
  method CheckDirectories(fs: FileSystem, names: seq<Path>) returns (directories: map<Path, bool>)
    ensures forall n :: n in directories <==> n in names
    ensures forall n | n in directories :: directories[n] == (n in fs.dirs)
  {
    directories := map[];
    for i := 0 to |names|
      invariant forall n :: n in directories <==> n in names[..i]
      invariant forall n | n in directories :: directories[n] == (n in fs.dirs)
    {
      var dirName := names[i];
      var present := dirName in fs.dirs;
      directories := directories[dirName := present];
    }
    assert names[..|names|] == names;
  }

  /** The file loop of `check_project_status`, with its two counters. */
  method CheckFiles(fs: FileSystem, paths: seq<Path>) returns (files: map<Path, bool>, total: int, missing: int)
    ensures forall f :: f in files <==> f in paths
    ensures forall f | f in files :: files[f] == (f in fs.files)
    ensures total == |paths|
    ensures missing == Missing(paths, fs.View())
  {
    files, total, missing := map[], 0, 0;
    for i := 0 to |paths|
      invariant forall f :: f in files <==> f in paths[..i]
      invariant forall f | f in files :: files[f] == (f in fs.files)
      invariant total == i
      invariant missing + Missing(paths[i..], fs.View()) == Missing(paths, fs.View())
    {
      var filePath := paths[i];
      assert paths[i..][1..] == paths[i + 1..];
      var present := filePath in fs.files;
      files := files[filePath := present];
      total := total + 1;
      if !present {
        missing := missing + 1;
      }
    }
    assert paths[..|paths|] == paths;
  }

  // ---------------------------------------------------------------------
  // The `backup` command
  // ---------------------------------------------------------------------

  const ChangelogFile: Path := "CHANGELOG.md"

  /** The text before the version in the new CHANGELOG entry. */
  const ChangelogLead: string := "# 更新日志\n\n## ["

  /** The entry the `backup` command puts in front of the old CHANGELOG text. */
  function ChangelogHeading(version: string, date: string, description: string): string
  {
    ChangelogLead + version + "] - " + date + "\n\n### 更新内容\n- " + description + "\n\n"
  }

  /** Writing `w` from offset 0 of a file opened `r+`: overwriting, never truncating. */
  function Overwrite(before: string, w: string): (r: string)
    ensures |r| == if |w| >= |before| then |w| else |before|
    ensures r[..|w|] == w
    ensures |w| < |before| ==> r[|w|..] == before[|w|..]
  {
    if |w| >= |before| then w else w + before[|w|..]
  }

  /** The CHANGELOG update of the `backup` command, when the file exists. */
  function WithChangelog(d: Disk, version: string, date: string, description: string): Disk
  {
    if ChangelogFile in d.files then
      var content := d.files[ChangelogFile];
      WithFile(d, ChangelogFile, Overwrite(content, ChangelogHeading(version, date, description) + content))
    else d
  }

  /**
   * The rewritten CHANGELOG is the new entry followed by the whole old
   * text: the old text survives as a suffix and the version follows the
   * entry's lead text.
   */
  lemma ChangelogPrepends(d: Disk, version: string, date: string, description: string)
    requires ChangelogFile in d.files
    ensures var content := d.files[ChangelogFile];
      var r := WithChangelog(d, version, date, description).files[ChangelogFile];
      r == ChangelogHeading(version, date, description) + content
      && r[|r| - |content|..] == content
      && r[..|ChangelogLead|] == ChangelogLead
      && r[|ChangelogLead|..|ChangelogLead| + |version|] == version
    ensures forall p | p != ChangelogFile :: SameFile(WithChangelog(d, version, date, description), d, p)
  {
    var content := d.files[ChangelogFile];
    var h := ChangelogHeading(version, date, description);
    var r := Overwrite(content, h + content);
    assert r == h + content;
    assert r[|r| - |content|..] == content;
    assert r[..|ChangelogLead| + |version|] == ChangelogLead + version;
  }

  method BackupCommand(m: BackupManager, version: string, description: string, force: bool,
                       date: string, now: string, createdAt: string) returns (proceeded: bool)
    requires m.Valid()
    modifies m, m.fs
    ensures m.Valid()
    ensures proceeded <==> ValidateVersion(Some(version)).Success?
                           && (force || Missing(ProjectFiles, old(m.fs.View())) == 0)
    ensures !proceeded ==> m.Snapshot() == old(m.Snapshot())
    ensures proceeded ==>
      m.Snapshot() == Create(Store(old(m.backups), WithChangelog(old(m.fs.View()), version, date, description)),
                             version, description, now, createdAt)
  {
    proceeded := BackupAllowed(m.fs, version, force);
    if !proceeded {
      return;
    }
    UpdateChangelog(m.fs, version, date, description);
    var created := m.CreateBackup(version, description, now, createdAt);
  }

  /** The two early returns of the `backup` command: an invalid version, and an incomplete project without `--force`. */
  method BackupAllowed(fs: FileSystem, version: string, force: bool) returns (allowed: bool)
    ensures allowed <==> ValidateVersion(Some(version)).Success? && (force || Missing(ProjectFiles, fs.View()) == 0)
  {
    if ValidateVersion(Some(version)).Failure? {
      return false;
    }
    var status := CheckProjectStatus(fs);
    if status.missingFiles > 0 && !force {
      return false;
    }
    allowed := true;
  }

  /** The CHANGELOG step of the `backup` command, in place on the filesystem. */
  method UpdateChangelog(fs: FileSystem, version: string, date: string, description: string)
    modifies fs
    ensures fs.View() == WithChangelog(old(fs.View()), version, date, description)
  {
    if ChangelogFile in fs.files {
      var content := fs.files[ChangelogFile];
      fs.Write(ChangelogFile, Overwrite(content, ChangelogHeading(version, date, description) + content));
    }
  }

  // ---------------------------------------------------------------------
  // The `delete` command
  // ---------------------------------------------------------------------

  /** `[b for b in backups if b['version'] == version]`. */
  function OfVersion(s: seq<Record>, version: string): (r: seq<Record>)
    ensures |r| <= |s|
    decreases |s|
  {
    if s == [] then []
    else
      assert s == [s[0]] + s[1..];
      (if s[0].version == version then [s[0]] else []) + OfVersion(s[1..], version)
  }

  /** The records of every other version, in ledger order. */
  function OtherVersions(s: seq<Record>, version: string): (r: seq<Record>)
    ensures |r| <= |s|
    decreases |s|
  {
    if s == [] then []
    else
      assert s == [s[0]] + s[1..];
      (if s[0].version != version then [s[0]] else []) + OtherVersions(s[1..], version)
  }

  /** The comprehension keeps exactly the records of the version; the complement keeps the rest. */
  lemma {:induction false} VersionMembers(s: seq<Record>, version: string)
    ensures forall y :: y in OfVersion(s, version) <==> y in s && y.version == version
    ensures forall y :: y in OtherVersions(s, version) <==> y in s && y.version != version
    decreases |s|
  {
    if s != [] {
      VersionMembers(s[1..], version);
      assert s == [s[0]] + s[1..];
    }
  }

  /**
   * The first record of a version sits at an index before which no record
   * has that version; taking it out leaves the rest of that version, and
   * every other version, in order.
   */
  lemma {:induction false} FirstOfVersionAt(s: seq<Record>, version: string) returns (i: nat)
    requires OfVersion(s, version) != []
    ensures i < |s| && s[i] == OfVersion(s, version)[0]
    ensures forall j :: 0 <= j < i ==> s[j].version != version
    ensures OfVersion(s[..i] + s[i + 1..], version) == OfVersion(s, version)[1..]
    ensures OtherVersions(s[..i] + s[i + 1..], version) == OtherVersions(s, version)
    decreases |s|
  {
    var t := s[1..];
    assert s == [s[0]] + t;
    if s[0].version == version {
      i := 0;
      assert s[..i] + s[i + 1..] == t;
    } else {
      var k := FirstOfVersionAt(t, version);
      i := k + 1;
      var u := t[..k] + t[k + 1..];
      assert s[..i] + s[i + 1..] == [s[0]] + u;
      assert ([s[0]] + u)[1..] == u;
      assert OfVersion([s[0]] + u, version) == OfVersion(u, version);
      assert OtherVersions([s[0]] + u, version) == [s[0]] + OtherVersions(u, version);
    }
  }

  /**
   * One turn of the `delete` loop: deleting by the key of the first record
   * of the version succeeds, removes exactly that record and its directory
   * tree (every path below an existing directory is gone with it), leaves
   * every other version alone, never brings a path into existence and
   * leaves every path outside that directory as it was.
   */
  lemma DeleteFirstOfVersion(st: Store, version: string)
    requires OfVersion(st.ledger, version) != []
    ensures var x := OfVersion(st.ledger, version)[0];
      var o := Delete(st, x.version, x.timestamp);
      o.ok
      && OfVersion(o.store.ledger, version) == OfVersion(st.ledger, version)[1..]
      && OtherVersions(o.store.ledger, version) == OtherVersions(st.ledger, version)
      && o.store.disk == DropDirs(st.disk, [x])
      && !Exists(o.store.disk, x.path)
      && (Exists(st.disk, x.path) ==> forall p | Within(p, x.path) :: !Exists(o.store.disk, p))
      && forall p :: Exists(o.store.disk, p) ==> Exists(st.disk, p)
    ensures var x := OfVersion(st.ledger, version)[0];
      var o := Delete(st, x.version, x.timestamp);
      forall p | !Within(p, x.path) :: (Exists(o.store.disk, p) <==> Exists(st.disk, p)) && SameFile(o.store.disk, st.disk, p)
  {
    var x := OfVersion(st.ledger, version)[0];
    var i := RemoveFirstOfVersion(st.ledger, version);
    DeleteRemovesOnly(st, x.version, x.timestamp, i);
  }

  /**
   * The key of the first record of a version first matches at that
   * record's own index, and `list.remove` of it leaves the rest of the
   * version and every other version in order.
   */
  lemma RemoveFirstOfVersion(s: seq<Record>, version: string) returns (i: nat)
    requires OfVersion(s, version) != []
    ensures var x := OfVersion(s, version)[0];
      i < |s| && s[i] == x && FirstMatch(s, x.version, x.timestamp) == Some(i)
      && OfVersion(RemoveFirst(s, x), version) == OfVersion(s, version)[1..]
      && OtherVersions(RemoveFirst(s, x), version) == OtherVersions(s, version)
  {
    var x := OfVersion(s, version)[0];
    i := FirstOfVersionAt(s, version);
    VersionMembers(s, version);
    assert x in OfVersion(s, version);
    assert FirstMatch(s, x.version, x.timestamp) == Some(i);
    assert x !in s[..i];
    RemoveFirstAt(s, x, i);
  }

  /** The comprehension comes out empty exactly when no record has the version. */
  lemma {:induction false} NoneOfVersion(s: seq<Record>, version: string)
    ensures OfVersion(s, version) == [] <==> forall y | y in s :: y.version != version
    decreases |s|
  {
    if s != [] {
      NoneOfVersion(s[1..], version);
      assert s == [s[0]] + s[1..];
    }
  }

  /** With no record of the version left, the others make up the whole ledger. */
  lemma {:induction false} OnlyOtherVersions(s: seq<Record>, version: string)
    requires OfVersion(s, version) == []
    ensures OtherVersions(s, version) == s
    decreases |s|
  {
    if s != [] {
      OnlyOtherVersions(s[1..], version);
    }
  }

  /** One turn of the `delete` loop: `delete_backup` on the key of the next record of the version. */
  method DeleteTurn(m: BackupManager, version: string, backup: Record) returns (ok: bool)
    requires m.Valid() && OfVersion(m.backups, version) != [] && OfVersion(m.backups, version)[0] == backup
    modifies m, m.fs
    ensures m.Valid() && ok
    ensures OfVersion(m.backups, version) == old(OfVersion(m.backups, version))[1..]
    ensures OtherVersions(m.backups, version) == old(OtherVersions(m.backups, version))
    ensures m.fs.View() == DropDirs(old(m.fs.View()), [backup])
    ensures !Exists(m.fs.View(), backup.path)
    ensures Exists(old(m.fs.View()), backup.path) ==> forall p | Within(p, backup.path) :: !Exists(m.fs.View(), p)
    ensures forall p :: Exists(m.fs.View(), p) ==> Exists(old(m.fs.View()), p)
    ensures forall p | !Within(p, backup.path) ::
      (Exists(m.fs.View(), p) <==> Exists(old(m.fs.View()), p)) && SameFile(m.fs.View(), old(m.fs.View()), p)
  {
    DeleteFirstOfVersion(m.Snapshot(), version);
    ok := m.DeleteBackup(backup.version, backup.timestamp);
  }

  /** Moving one position along a sequence: the head of the rest joins the part already done. */
  lemma StepAlong(s: seq<Record>, j: nat)
    requires j < |s|
    ensures s[j..] != [] && s[j..][0] == s[j] && s[j..][1..] == s[j + 1..]
    ensures s[..j + 1] == s[..j] + [s[j]]
  {
  }

  /** The loop of the `delete` command over the selected records. */
  method DeleteEach(m: BackupManager, version: string, backups: seq<Record>) returns (results: seq<bool>)
    requires m.Valid() && OfVersion(m.backups, version) == backups
    modifies m, m.fs
    ensures m.Valid()
    ensures OfVersion(m.backups, version) == []
    ensures OtherVersions(m.backups, version) == old(OtherVersions(m.backups, version))
    ensures m.fs.View() == DropDirs(old(m.fs.View()), backups)
    ensures |results| == |backups| && false !in results
  {
    ghost var others := OtherVersions(m.backups, version);
    ghost var d0 := m.fs.View();
    results := [];
    for j := 0 to |backups|
      invariant m.Valid()
      invariant OfVersion(m.backups, version) == backups[j..]
      invariant OtherVersions(m.backups, version) == others
      invariant m.fs.View() == DropDirs(d0, backups[..j])
      invariant |results| == j && false !in results
    {
      var backup := backups[j];
      StepAlong(backups, j);
      var ok := DeleteTurn(m, version, backup);
      DropDirsSnoc(d0, backups[..j], backup);
      results := results + [ok];
    }
    assert backups[..|backups|] == backups;
  }

  method DeleteCommand(m: BackupManager, version: string) returns (found: bool, results: seq<bool>)
    requires m.Valid()
    modifies m, m.fs
    ensures m.Valid()
    ensures found <==> exists y | y in old(m.backups) :: y.version == version
    ensures !found ==> m.Snapshot() == old(m.Snapshot()) && results == []
    ensures found ==> |results| == |OfVersion(old(m.backups), version)| && false !in results
    ensures m.backups == OtherVersions(old(m.backups), version)
    ensures m.fs.View() == DropDirs(old(m.fs.View()), OfVersion(old(m.backups), version))
    ensures forall y | y in OfVersion(old(m.backups), version) :: !Exists(m.fs.View(), y.path)
    ensures forall y, p | y in OfVersion(old(m.backups), version) && Exists(old(m.fs.View()), y.path) && Within(p, y.path) ::
      !Exists(m.fs.View(), p)
    ensures forall p :: Exists(m.fs.View(), p) ==> Exists(old(m.fs.View()), p)
    ensures forall p | Spared(p, OfVersion(old(m.backups), version)) ::
      (Exists(m.fs.View(), p) <==> Exists(old(m.fs.View()), p)) && SameFile(m.fs.View(), old(m.fs.View()), p)
  {
    var backups := OfVersion(m.GetBackupList(), version);
    DropDirsEffect(m.fs.View(), backups);
    NoneOfVersion(m.backups, version);
    if backups == [] {
      OnlyOtherVersions(m.backups, version);
      return false, [];
    }
    found := true;
    results := DeleteEach(m, version, backups);
    OnlyOtherVersions(m.backups, version);
  }

  // ---------------------------------------------------------------------
  // The `restore` command
  // ---------------------------------------------------------------------

  /** Description of the caller-side snapshot the `restore` command takes. */
  const TempDescription: string := "恢复前的自动备份"

  method RestoreCommand(m: BackupManager, version: Option<string>, force: bool, stamp: string,
                        now1: string, at1: string, now2: string, at2: string) returns (ok: bool)
    requires m.Valid()
    modifies m, m.fs
    ensures m.Valid()
    ensures ValidateVersion(version).Failure? ==> !ok && m.Snapshot() == old(m.Snapshot())
    ensures ValidateVersion(version).Success? ==>
      var pre := if force then old(m.Snapshot())
                 else Create(old(m.Snapshot()), "temp_" + stamp, TempDescription, now1, at1);
      Outcome(ok, m.Snapshot()) == Restore(pre, version, None, now2, at2)
  {
    if ValidateVersion(version).Failure? {
      return false;
    }
    if !force {
      var created := m.CreateBackup("temp_" + stamp, TempDescription, now1, at1);
    }
    ok := m.RestoreBackup(version, None, now2, at2);
  }

  /** A record newer than every other one survives a trim that keeps at least one. */
  lemma NewestSurvivesTrim(s: seq<Record>, rec: Record, keep: int)
    requires keep >= 1
    requires forall y | y in s :: Older(y, rec)
    ensures rec in Trimmed(s + [rec], keep)
  {
    var s1 := s + [rec];
    if |s1| > keep {
      TrimKeepsNewest(s1, keep);
      assert multiset(Trimmed(s1, keep)) + multiset(Evicted(s1, keep)) == multiset(s1);
      assert forall y | y in s1 && y != rec :: Older(y, rec);
      NewestKept(s1, Trimmed(s1, keep), Evicted(s1, keep), rec);
    }
  }

  /**
   * When a split of `s` keeps at least one record and keeps none older than
   * an evicted one, a record newer than all others is kept.
   */
  lemma NewestKept(s: seq<Record>, kept: seq<Record>, ev: seq<Record>, rec: Record)
    requires kept != [] && multiset(kept) + multiset(ev) == multiset(s)
    requires forall r, e | r in kept && e in ev :: !Older(r, e)
    requires rec in s && forall y | y in s && y != rec :: Older(y, rec)
    ensures rec in kept
  {
    var r0 := kept[0];
    assert r0 in multiset(s);
    assert rec in multiset(s);
    assert rec in kept || rec in ev;
    if rec in ev {
      assert !Older(r0, rec);
    }
  }

  /** The newest record of a ledger in which one record is newer than all others is that record. */
  lemma LatestIsStrictlyNewest(s: seq<Record>, rec: Record)
    requires rec in s
    requires forall y | y in s && y != rec :: Older(y, rec)
    ensures Latest(s) == rec
  {
    LatestIsNewest(s);
  }

  /**
   * As written, `restore` without `--force` restores from its own temp
   * snapshot whenever that snapshot is newer than every record: the
   * requested version plays no part.
   */
  lemma TempSnapshotIsRestoreSource(st: Store, version: Option<string>, stamp: string, now1: string, at1: string)
    requires forall y | y in st.ledger :: LexLess(y.timestamp, now1)
    ensures var rec := NewRecord("temp_" + stamp, TempDescription, now1, at1);
      var s := Create(st, "temp_" + stamp, TempDescription, now1, at1).ledger;
      s != [] && Target(s, version, None) == Some(rec)
  {
    var rec := NewRecord("temp_" + stamp, TempDescription, now1, at1);
    var s := Create(st, "temp_" + stamp, TempDescription, now1, at1).ledger;
    NewestSurvivesTrim(st.ledger, rec, KeepAfterCreate);
    assert s == Trimmed(st.ledger + [rec], KeepAfterCreate);
    assert forall y | y in s && y != rec :: Older(y, rec) by {
      var s1 := st.ledger + [rec];
      if |s1| > KeepAfterCreate {
        assert multiset(s) + multiset(Evicted(s1, KeepAfterCreate)) == multiset(s1);
      }
      forall y | y in s && y != rec
        ensures y in st.ledger
      {
        assert multiset(s)[y] > 0;
        assert multiset(s1)[y] > 0;
      }
    }
    LatestIsStrictlyNewest(s, rec);
  }

  /**
   * The evidently intended `restore --version v`: restore the newest
   * record of version `v`, naming it by its full key.
   */
  function RestoreVersion(st: Store, version: string, now: string, createdAt: string): Outcome
  {
    var mine := OfVersion(st.ledger, version);
    if mine == [] then Outcome(false, st)
    else Restore(st, Some(version), Some(Latest(mine).timestamp), now, createdAt)
  }

  /**
   * The corrected restore succeeds exactly when the version is in the
   * ledger, and then copies back from a record of that version that is
   * newest among that version's records.
   */
  lemma RestoreVersionRestoresThatVersion(st: Store, version: string, now: string, createdAt: string)
    requires version != "" && forall y | y in st.ledger :: y.timestamp != ""
    ensures RestoreVersion(st, version, now, createdAt).ok <==> exists y | y in st.ledger :: y.version == version
    ensures var o := RestoreVersion(st, version, now, createdAt);
      var snap := Create(st, AutoVersion, AutoDescription, now, createdAt);
      o.ok ==> exists b | b in st.ledger ::
        b.version == version
        && (forall y | y in st.ledger && y.version == version :: !Older(b, y))
        && o.store.disk == RestoreAll(snap.disk, b.files, b.path)
  {
    var mine := OfVersion(st.ledger, version);
    VersionMembers(st.ledger, version);
    if mine != [] {
      var newest := Latest(mine);
      LatestIsNewest(mine);
      assert newest in st.ledger && HasKey(newest, version, newest.timestamp);
      RestoreFailures(st, Some(version), Some(newest.timestamp), now, createdAt);
      RestoreSelectsFirst(st, Some(version), Some(newest.timestamp), now, createdAt);
    } else {
      assert forall y | y in st.ledger :: y.version != version;
    }
  }
}

=== FILE: paths.dfy ===
/**
 * The slice of `pathlib` the backup code uses: `Path.name`, `Path.parent`,
 * the `/` join operator, and "lies inside this directory tree".
 * Paths are plain strings with '/' as separator.
 */
module Paths {

  type Path = string

  /** `Path(p).name`: the longest suffix of `p` that holds no '/'. */
  function Base(p: Path): (r: Path)
    ensures |r| <= |p| && r == p[|p| - |r|..]
    ensures '/' !in r
    ensures |r| < |p| ==> p[|p| - |r| - 1] == '/'
    decreases |p|
  {
    if p == [] || p[|p| - 1] == '/' then []
    else Base(p[..|p| - 1]) + [p[|p| - 1]]
  }

  /** `Path(p).parent`: everything before the last '/', or "." for a bare name. */
  function Parent(p: Path): Path
  {
    var n := Base(p);
    if |n| == |p| then "." else p[..|p| - |n| - 1]
  }

  /** `Path(dir) / name`. */
  function Join(dir: Path, name: Path): Path
  {
    dir + "/" + name
  }

  /** `p` is `root` itself or lies somewhere below it. */
  predicate Within(p: Path, root: Path)
  {
    p == root || root + "/" <= p
  }

  /** Lying below a path that lies below `r` is lying below `r`. */
  lemma WithinTransitive(p: Path, q: Path, r: Path)
    requires Within(p, q) && Within(q, r)
    ensures Within(p, r)
  {
    if p != q && q != r {
      var k := |r| + 1;
      assert q[..k] == r + "/";
      assert p[..|q|] == q;
      assert p[..k] == q[..k];
    }
  }

  lemma JoinWithin(dir: Path, name: Path)
    ensures Within(Join(dir, name), dir)
  {
    assert (dir + "/") <= dir + "/" + name;
  }

  lemma JoinInjective(dir: Path, a: Path, b: Path)
    requires Join(dir, a) == Join(dir, b)
    ensures a == b
  {
    assert a == Join(dir, a)[|dir| + 1..];
    assert b == Join(dir, b)[|dir| + 1..];
  }

  /** A name without '/' is its own base name. */
  lemma {:induction false} BaseOfPlain(n: Path)
    requires '/' !in n
    ensures Base(n) == n
    decreases |n|
  {
    if n != [] {
      var init := n[..|n| - 1];
      assert n == init + [n[|n| - 1]];
      BaseOfPlain(init);
    }
  }

  /** A plain name after a prefix that ends in '/' (or no prefix) is the base name. */
  lemma BaseAfterSlash(q: Path, n: Path)
    requires '/' !in n && (q == [] || q[|q| - 1] == '/')
    ensures Base(q + n) == n
  {
    if q == [] {
      assert q + n == n;
      BaseOfPlain(n);
    } else {
      var dir := q[..|q| - 1];
      SlashPrefix(q, n);
      ParentOfJoin(dir, n);
    }
  }

  /** A prefix ending in '/' followed by a name is the join of the prefix's head with that name. */
  lemma SlashPrefix(q: Path, n: Path)
    requires q != [] && q[|q| - 1] == '/'
    ensures q + n == Join(q[..|q| - 1], n)
  {
    assert q == q[..|q| - 1] + "/";
  }

  /** The name joined under a directory is that path's base name, and the directory its parent. */
  lemma {:induction false} ParentOfJoin(dir: Path, name: Path)
    requires '/' !in name
    ensures Base(Join(dir, name)) == name
    ensures Parent(Join(dir, name)) == dir
    decreases |name|
  {
    var p := Join(dir, name);
    if name != [] {
      var init := name[..|name| - 1];
      assert p[..|p| - 1] == Join(dir, init);
      assert name == init + [name[|name| - 1]];
      ParentOfJoin(dir, init);
    }
  }
}

=== FILE: snapshots.dfy ===
/**
 * The two copy loops of the backup manager, as folds over a disk value:
 * `create_backup` copies each existing manifest file into the backup
 * directory under its base name, and `restore_backup` copies
 * `<backup dir>/<base name>` back to each manifest path. A missing source is
 * skipped in both directions.
 */
module Snapshots {
  import opened Paths
  import opened Disks

  /** One turn of the copy loop in `create_backup`. */
  function SaveOne(d: Disk, f: Path, dir: Path): Disk
  {
    if f in d.files then
      var dst := Join(dir, Base(f));
      WithCopy(WithDir(d, Parent(dst)), f, dst)
    else d
  }

  /** The whole copy loop of `create_backup` over `manifest`. */
  function SaveAll(d: Disk, manifest: seq<Path>, dir: Path): Disk
    decreases |manifest|
  {
    if manifest == [] then d
    else SaveAll(SaveOne(d, manifest[0], dir), manifest[1..], dir)
  }

  /** One turn of the copy loop in `restore_backup`. */
  function RestoreOne(d: Disk, f: Path, dir: Path): Disk
  {
    var src := Join(dir, Base(f));
    var d1 := WithDir(d, Parent(f));
    if src in d1.files then WithCopy(d1, src, f) else d1
  }

  /** The whole copy loop of `restore_backup` over a record's `files`. */
  function RestoreAll(d: Disk, files: seq<Path>, dir: Path): Disk
    decreases |files|
  {
    if files == [] then d
    else RestoreAll(RestoreOne(d, files[0], dir), files[1..], dir)
  }

  /** The two disks hold the same file, or both lack it, at `p`. */
  predicate SameFile(a: Disk, b: Disk, p: Path)
  {
    (p in a.files <==> p in b.files) && (p in a.files ==> a.files[p] == b.files[p])
  }

  /** No two manifest entries share a base name, so their copies cannot collide. */
  ghost predicate DistinctBases(m: seq<Path>)
  {
    forall i, j :: 0 <= i < j < |m| ==> Base(m[i]) != Base(m[j])
  }

  /** No manifest entry lies inside the backup directory. */
  ghost predicate OutsideOf(m: seq<Path>, dir: Path)
  {
    forall f | f in m :: !Within(f, dir)
  }

  /** The create loop writes only `<dir>/<base name>` of its entries. */
  lemma {:induction false} SaveAllFrame(d: Disk, m: seq<Path>, dir: Path, p: Path)
    requires forall f | f in m :: p != Join(dir, Base(f))
    ensures SameFile(SaveAll(d, m, dir), d, p)
    decreases |m|
  {
    if m != [] {
      SaveAllFrame(SaveOne(d, m[0], dir), m[1..], dir, p);
    }
  }

  /**
   * After the create loop, the backup directory holds, under each entry's
   * base name, the content that entry had when the loop started; an entry
   * that did not exist is simply absent from the backup.
   */
  lemma {:induction false} SaveAllStores(d: Disk, m: seq<Path>, dir: Path)
    requires DistinctBases(m) && OutsideOf(m, dir)
    ensures forall f | f in m && f in d.files ::
      Join(dir, Base(f)) in SaveAll(d, m, dir).files
      && SaveAll(d, m, dir).files[Join(dir, Base(f))] == d.files[f]
    decreases |m|
  {
    if m != [] {
      var d1 := SaveOne(d, m[0], dir);
      var tail := m[1..];
      assert DistinctBases(tail) && OutsideOf(tail, dir);
      SaveAllStores(d1, tail, dir);
      forall f | f in m && f in d.files
        ensures Join(dir, Base(f)) in SaveAll(d, m, dir).files
        ensures SaveAll(d, m, dir).files[Join(dir, Base(f))] == d.files[f]
      {
        if f == m[0] {
          forall g | g in tail
            ensures Join(dir, Base(m[0])) != Join(dir, Base(g))
          {
            var j :| 0 <= j < |tail| && tail[j] == g;
            assert Base(m[0]) != Base(m[j + 1]);
            if Join(dir, Base(m[0])) == Join(dir, Base(g)) {
              JoinInjective(dir, Base(m[0]), Base(g));
            }
          }
          SaveAllFrame(d1, tail, dir, Join(dir, Base(m[0])));
        } else {
          JoinWithin(dir, Base(m[0]));
          assert f != Join(dir, Base(m[0]));
        }
      }
    }
  }

  /** The restore loop writes only its own entries. */
  lemma {:induction false} RestoreAllFrame(d: Disk, m: seq<Path>, dir: Path, p: Path)
    requires p !in m
    ensures SameFile(RestoreAll(d, m, dir), d, p)
    decreases |m|
  {
    if m != [] {
      RestoreAllFrame(RestoreOne(d, m[0], dir), m[1..], dir, p);
    }
  }

  /**
   * `r` holds at `f` what the restore loop reads for `f` from `d`: the
   * content of `<dir>/<base name>` when that file exists in `d`, and
   * otherwise whatever `d` holds at `f`.
   */
  ghost predicate ReadBack(r: Disk, d: Disk, f: Path, dir: Path)
  {
    if Join(dir, Base(f)) in d.files then f in r.files && r.files[f] == d.files[Join(dir, Base(f))]
    else SameFile(r, d, f)
  }

  /** One turn of the restore loop reads back its own entry and leaves every other path alone. */
  lemma RestoreOneEffect(d: Disk, f: Path, dir: Path)
    ensures ReadBack(RestoreOne(d, f, dir), d, f, dir)
    ensures forall p | p != f :: SameFile(RestoreOne(d, f, dir), d, p)
  {
    var src := Join(dir, Base(f));
    var d1 := WithDir(d, Parent(f));
    CopyIfPresent(d, d1, src, f, RestoreOne(d, f, dir));
  }

  /** Copying `src` to `f` when `src` exists, on a disk with the files of `d`. */
  lemma CopyIfPresent(d: Disk, d1: Disk, src: Path, f: Path, r: Disk)
    requires d1.files == d.files
    requires r == if src in d1.files then WithCopy(d1, src, f) else d1
    ensures src in d.files ==> f in r.files && r.files[f] == d.files[src]
    ensures src !in d.files ==> SameFile(r, d, f)
    ensures forall p | p != f :: SameFile(r, d, p)
  {
  }

  /** A read-back entry that later turns leave alone stays read back. */
  lemma ReadBackKept(d: Disk, d1: Disk, r: Disk, f: Path, dir: Path)
    requires ReadBack(d1, d, f, dir) && SameFile(r, d1, f)
    ensures ReadBack(r, d, f, dir)
  {
  }

  /** An entry read back after a turn that left its source alone is read back from the earlier disk. */
  lemma ReadBackLater(d: Disk, d1: Disk, r: Disk, f: Path, dir: Path)
    requires ReadBack(r, d1, f, dir) && SameFile(d1, d, Join(dir, Base(f)))
    requires SameFile(d1, d, f)
    ensures ReadBack(r, d, f, dir)
  {
  }

  /** A manifest with distinct base names outside `dir` keeps both properties past its head, and its head does not recur. */
  lemma HeadNotInTail(m: seq<Path>, dir: Path)
    requires m != [] && DistinctBases(m) && OutsideOf(m, dir)
    ensures DistinctBases(m[1..]) && OutsideOf(m[1..], dir) && m[0] !in m[1..] && !Within(m[0], dir)
  {
    var tail := m[1..];
    forall j | 0 <= j < |tail|
      ensures tail[j] != m[0]
    {
      assert Base(m[0]) != Base(m[j + 1]);
    }
  }

  /**
   * After the restore loop, each entry holds the content of
   * `<dir>/<base name>` when that file exists, and is left as it was when it
   * does not.
   */
  lemma {:induction false} RestoreAllReads(d: Disk, m: seq<Path>, dir: Path)
    requires DistinctBases(m) && OutsideOf(m, dir)
    ensures forall f | f in m :: ReadBack(RestoreAll(d, m, dir), d, f, dir)
    decreases |m|
  {
    if m != [] {
      var d1 := RestoreOne(d, m[0], dir);
      var tail := m[1..];
      var r := RestoreAll(d1, tail, dir);
      assert RestoreAll(d, m, dir) == r;
      HeadNotInTail(m, dir);
      RestoreOneEffect(d, m[0], dir);
      RestoreAllReads(d1, tail, dir);
      RestoreAllFrame(d1, tail, dir, m[0]);
      ReadBackKept(d, d1, r, m[0], dir);
      forall f | f in tail
        ensures ReadBack(r, d, f, dir)
      {
        JoinWithin(dir, Base(f));
        assert Join(dir, Base(f)) != m[0];
        ReadBackLater(d, d1, r, f, dir);
      }
    }
  }

  /** Read-back entries whose sources match a disk `d0` hold `d0`'s saved content. */
  lemma ReadBackFrom(r: Disk, d: Disk, d0: Disk, m: seq<Path>, dir: Path)
    requires forall f | f in m :: ReadBack(r, d, f, dir) && SameFile(d, d0, Join(dir, Base(f)))
    ensures forall f | f in m && Join(dir, Base(f)) in d0.files ::
      f in r.files && r.files[f] == d0.files[Join(dir, Base(f))]
  {
  }

  /**
   * Round trip: copying a manifest into a backup directory and later
   * copying it back brings every entry that existed at backup time back to
   * its content at that time, provided the backup files were left alone in
   * between.
   */
  lemma RoundTrip(d0: Disk, m: seq<Path>, dir: Path, later: Disk)
    requires DistinctBases(m) && OutsideOf(m, dir)
    requires forall f | f in m :: SameFile(later, SaveAll(d0, m, dir), Join(dir, Base(f)))
    ensures forall f | f in m && f in d0.files ::
      f in RestoreAll(later, m, dir).files && RestoreAll(later, m, dir).files[f] == d0.files[f]
  {
    SaveAllStores(d0, m, dir);
    RestoreAllReads(later, m, dir);
  }

  /** With nothing inside the backup directory, the restore loop copies nothing. */
  lemma {:induction false} RestoreFromEmptyDir(d: Disk, m: seq<Path>, dir: Path)
    requires forall p | p in d.files :: !Within(p, dir)
    ensures RestoreAll(d, m, dir).files == d.files
    decreases |m|
  {
    if m != [] {
      JoinWithin(dir, Base(m[0]));
      RestoreFromEmptyDir(RestoreOne(d, m[0], dir), m[1..], dir);
    }
  }
}

=== FILE: strings.dfy ===
/**
 * Python's ordering of `str` values. Backup timestamps are plain strings and
 * are sorted with `<`, which compares code points from the left and treats
 * a proper prefix as smaller.
 */
module Strings {

  /** `a < b` on Python strings. */
  predicate LexLess(a: string, b: string)
    decreases |a|
  {
    if b == [] then false
    else if a == [] then true
    else if a[0] != b[0] then a[0] < b[0]
    else LexLess(a[1..], b[1..])
  }

  lemma {:induction false} LexLessIrreflexive(a: string)
    ensures !LexLess(a, a)
    decreases |a|
  {
    if a != [] {
      LexLessIrreflexive(a[1..]);
    }
  }

  lemma {:induction false} LexLessTransitive(a: string, b: string, c: string)
    requires LexLess(a, b) && LexLess(b, c)
    ensures LexLess(a, c)
    decreases |a|
  {
    if a != [] && a[0] == b[0] && b[0] == c[0] {
      LexLessTransitive(a[1..], b[1..], c[1..]);
    }
  }

  /** Any two different strings are ordered one way or the other. */
  lemma {:induction false} LexLessTotal(a: string, b: string)
    requires a != b
    ensures LexLess(a, b) || LexLess(b, a)
    decreases |a|
  {
    if a != [] && b != [] && a[0] == b[0] {
      assert a == [a[0]] + a[1..] && b == [b[0]] + b[1..];
      LexLessTotal(a[1..], b[1..]);
    }
  }

  /** "Not older than" is transitive: the form the sorting proofs use. */
  lemma NotLessTransitive(a: string, b: string, c: string)
    requires !LexLess(a, b) && !LexLess(b, c)
    ensures !LexLess(a, c)
  {
    if LexLess(a, c) {
      if b == c {
      } else {
        LexLessTotal(b, c);
        LexLessTransitive(a, c, b);
      }
    }
  }
}

=== FILE: wrappers.dfy ===
/** Optional values and failing results, used for Python's `None` and for raised exceptions. */
module Wrappers {

  datatype Option<+T> = None | Some(value: T) {
    function GetOr(default: T): T {
      match this
      case Some(v) => v
      case None => default
    }
  }

  datatype Result<+R, +E> = Success(value: R) | Failure(error: E)
}
